=== FILE: README.md ===
# gnos core in Dafny

gnos mounts a FUSE filesystem whose files are served by pluggable drivers. It also
carries a capability-token security engine. This project models the parts of the
system that hold decidable logic:

- **The full capability engine** (`src/security/capabilities.rs`, module
  `Capabilities`). Capabilities carry an rwx mask, a strict expiry, a
  component-wise path scope and an HMAC signature over `path:perms:expiry:owner`.
  The `CapabilityManager` class holds the active-capability map, a 60-second
  validation cache keyed by token text, and an audit log capped at 10,000 entries.
  The crate does not compile this file, but it is the richest logic in the repository.
- **The live capability engine** (`src/security/mod.rs`, module `Security`). It has
  the same bit, expiry, scope and token rules. Its `check_permission` grants
  everything ("development mode").
- **The shared pieces.** The `gnos.` token codec (module `Tokens`) is generic over
  the capability type. The operation bits are in module `Permissions`.
- **The command-line helpers** (`src/main.rs`, module `Cli`). These are the `rwx`
  parser and the capability and token built by the `token` command.
- **The FUSE filesystem** (`src/vfs/filesystem.rs`, class
  `FileSystem.GnosFileSystem`) and its inode table (`src/vfs/inode.rs`, class
  `Inodes.InodeManager`). Kernel replies are the methods' return values: an
  attribute record, data, a handle number, or an errno.
- **Driver routing** (`src/drivers/mod.rs`, class `Drivers.DriverRegistry`). This
  includes the driver interface (`DriverTraits`) and the two stub drivers (`Cloud`,
  `Http`).

Rust's Unix `Path` semantics are modelled in `Paths`. `Components` follows
`Path::components`, `StartsWith` follows `Path::starts_with` and `Join` follows
`Path::join`. Path equality and hashing go through components, so the inode index
is keyed by components. UTF-8 encoding and decimal formatting are in `Bytes`.

Time is whole seconds since the epoch, passed in as `now`. JSON, base64, UTF-8
decoding, HMAC-SHA256 and SHA-256 are library code. They are function-valued fields
of the `Tokens.Codec` and `Capabilities.Crypto` records. Each round-trip law appears
as a `requires` at the one value where a proof needs it, never as an axiom.

`HashMap` iteration order is unspecified. `check_permission`'s search and
`get_driver`'s search therefore pick any not-yet-visited key (`:|`), and their
contracts hold for every order.

## How the code routes, revokes and logs

These behaviours of the code are easy to expect otherwise; the model follows the code:
- There is no longest-prefix mount resolution. `get_driver` returns whichever registered driver supports the path first, in map order.
- There is no revocation set. Revocation removes map entries by capability hash. The cache is keyed by token text, so a cached token still validates after revocation.
- Audit records carry no sequence numbers. The audit log is a capped list.
- A token is `gnos.` followed by base64 of the JSON. There is no separate signature segment: the signature is a field inside the JSON.
- The filesystem callbacks neither authorise nor dispatch. They never consult the driver registry or the capability manager.

## Model

| member | source | states |
|---|---|---|
| Permissions.ToBit | src/security/capabilities.rs:21-29 | every operation maps to a single rwx bit, and the read bit 0b100 is the bit of exactly Read and List |
| Permissions.Allows | src/security/capabilities.rs:60-62 | definition: an operation is allowed when its bit is set in the mask |
| Permissions.AllowsDeterminesRwx | src/security/capabilities.rs:60-62 | the rwx part of any mask is exactly what `allows` reports for Read, Write and Execute; the higher bits are never consulted |
| Permissions.ListIffRead | src/security/capabilities.rs:21-29 | for every mask, List is granted exactly when Read is (both use bit 0b100) |
| Permissions.MaskFromBits | src/security/mod.rs:34-37 | any combination of r, w and x bits grants exactly the matching operations, with List following Read |
| Capabilities.Capability.IsExpired | src/security/capabilities.rs:64-66 | definition: expired strictly after the expiry second |
| Capabilities.Capability.IsValidForPath | src/security/capabilities.rs:68-70 | definition: the requested path starts, component-wise, with the capability's path |
| Capabilities.NewCapability | src/security/capabilities.rs:43-58 | a new capability keeps the given path, mask and owner, is issued now and is unsigned |
| Capabilities.NewCapabilityLifetime | src/security/capabilities.rs:64-66 | a new capability is live up to and including `now + duration` and expired strictly after |
| Capabilities.Sign | src/security/capabilities.rs:98-111 | signing sets a signature and changes no other field |
| Capabilities.SignedData | src/security/capabilities.rs:100-105 | definition: the signed text is `path:permissions:expiry-seconds:owner` |
| Capabilities.Verify | src/security/capabilities.rs:113-131 | definition: false without a signature or when it does not decode; otherwise the decoded tag equals the recomputed HMAC |
| Capabilities.UnsignedNeverVerifies | src/security/capabilities.rs:113-116 | `verify` is false without a signature |
| Capabilities.SignThenVerify | src/security/capabilities.rs:98-131 | verifying with the key that signed succeeds, given that base64 decodes its own output |
| Capabilities.SignatureIgnoresIssuedAt | src/security/capabilities.rs:100-105 | the signed text does not cover `issued_at`: changing it never changes `verify` |
| Capabilities.SignedDataBindsPermissions | src/security/capabilities.rs:100-105 | the signed text does cover the mask: changing only the permissions changes it |
| Capabilities.SignedDataAmbiguous | src/security/capabilities.rs:100-105 | the `:`-joined signed text is not injective: two different capabilities share it, so they share every signature |
| Capabilities.DefaultConfig | src/security/capabilities.rs:143-157 | definition: mask 0b100, lifetime 24 hours, signatures required, the development secret, issuers `gnos-cli` and `gnos-web` |
| Capabilities.DefaultConfigFacts | src/security/capabilities.rs:143-157 | the default mask grants Read and List but not Write or Execute, tokens live at most 86,400 s, signatures are required and the secret is 32 bytes |
| Capabilities.DevSecretLength | src/security/capabilities.rs:146-147 | the development secret literal is exactly 32 bytes, so the `copy_from_slice` into the 32-byte buffer does not panic |
| Capabilities.LogAppend | src/security/capabilities.rs:331-337 | the new entry is last; below the cap the log grows by exactly that entry; at the cap the push makes 10,001 entries and exactly the oldest 5,000 are drained, leaving the newest 5,001 in order; a log within 10,000 stays within 10,000 |
| Capabilities.LogAppendSuffix | src/security/capabilities.rs:331-337 | whatever is drained, the log is a suffix of the old log followed by the new entry, so it keeps the newest entries in order |
| Capabilities.SuccessCount | src/security/capabilities.rs:369 | definition: the number of audit entries whose outcome is success |
| Capabilities.FailureCount | src/security/capabilities.rs:370 | definition: the number of audit entries whose outcome is failure |
| Capabilities.CountsPartition | src/security/capabilities.rs:369-370 | successes plus failures equal the number of audit entries |
| Capabilities.AppendCounts | src/security/capabilities.rs:331 | appending below the cap adds one to the counter that matches the entry's outcome |
| Capabilities.Elapsed | src/security/capabilities.rs:272 | definition: `elapsed().unwrap_or_default()`, the seconds since the reading, or zero when the clock went backwards |
| Capabilities.CacheHit | src/security/capabilities.rs:270-276 | definition: the token is cached, was cached under 60 s ago, and its capability is unexpired |
| Capabilities.Validate | src/security/capabilities.rs:265-300 | a cache hit is exactly a live entry cached under 60 s ago; otherwise a parsed result is the decoded token, unexpired, with a valid signature when signatures are required; rejections are `PermissionDenied` or `CapabilityExpired` |
| Capabilities.ValidateRejections | src/security/capabilities.rs:280-299 | for a decoded, uncached token: an expired one is `CapabilityExpired` before the signature is checked; a live one with a bad signature is denied when signatures are required; a live one whose signature verifies, or any live one when signatures are not required, parses to exactly the decoded capability |
| Capabilities.CacheAfter | src/security/capabilities.rs:295-297 | a freshly parsed capability is stored under the token text with the current time; a cache hit or a rejection leaves the cache as it was |
| Capabilities.ParsedThenCached | src/security/capabilities.rs:270-277 | after a successful parse the token is answered from the cache for the next 60 s while it lives |
| Capabilities.HashCapability | src/security/capabilities.rs:302-312 | definition: base64 of the SHA-256 of `path:permissions:owner:issued-seconds` |
| Capabilities.HashIgnoresExpiryAndSignature | src/security/capabilities.rs:302-312 | the capability id does not depend on expiry or signature, so signing does not move it |
| Capabilities.Covers | src/security/capabilities.rs:204-206 | definition: the capability is valid for the path, allows the operation and is not expired |
| Capabilities.EnvGrant | src/security/capabilities.rs:191-199 | the environment token grants exactly when it validates and its capability covers the path and allows the operation; the granted capability is the validated one |
| Capabilities.FindCovering | src/security/capabilities.rs:201-210 | the search finds a covering capability, or reports none exactly when no active capability covers the request |
| Capabilities.DenialMessage | src/security/capabilities.rs:213-217 | definition: `Access denied to <path> for <operation>: No valid capability found` |
| Capabilities.Granted | src/security/capabilities.rs:231-239 | the granted capability lives `min(duration, max_token_lifetime)` seconds, keeps path, mask and owner, and is signed exactly when signatures are required |
| Capabilities.GrantedTokenValidates | src/security/capabilities.rs:224-300 | a granted token, presented live and uncached, validates to exactly the granted capability, given the library round-trip laws |
| Capabilities.LiveCapabilities | src/security/capabilities.rs:348-351 | exactly the unexpired capabilities remain, each unchanged |
| Capabilities.LiveCache | src/security/capabilities.rs:354-359 | exactly the cache entries that are unexpired and were cached under 300 s ago remain, each unchanged |
| Capabilities.CleanupPreservesDecisions | src/security/capabilities.rs:344-359 | cleaning up at `now` changes neither the active-capability decision nor token validation at `now` |
| Capabilities.CleanupIdempotent | src/security/capabilities.rs:344-359 | cleaning up twice is cleaning up once, and a later cleanup subsumes an earlier one |
| Capabilities.CapabilityManager.constructor | src/security/capabilities.rs:177-186 | the configuration is kept and the three collections start empty |
| Capabilities.CapabilityManager.CheckPermission | src/security/capabilities.rs:188-222 | the result is Ok exactly when the environment token or an active capability covers the path and operation; exactly one audit entry is appended, recording the outcome, the grantee (or "unknown" with the denial reason), the path, the operation and the time; only a freshly parsed environment token changes the cache |
| Capabilities.CapabilityManager.Authorize | src/security/capabilities.rs:191-210 | the environment token's owner when it grants; otherwise the owner of some covering active capability; none exactly when neither grants |
| Capabilities.CapabilityManager.RecordDecision | src/security/capabilities.rs:195-214 | one audit entry is appended for a grant or a denial, and the log stays within 10,000 entries |
| Capabilities.CapabilityManager.GrantCapability | src/security/capabilities.rs:224-251 | the token is the encoding of the granted capability, and exactly one entry keyed by its hash is added when encoding succeeds |
| Capabilities.CapabilityManager.RevokeCapability | src/security/capabilities.rs:253-263 | a token that does not decode changes nothing; otherwise the hash key leaves both maps and nothing else changes |
| Capabilities.CapabilityManager.ValidateToken | src/security/capabilities.rs:265-300 | the result is the decision of `Validate`, and the cache gains the token exactly when it was freshly parsed |
| Capabilities.CapabilityManager.LogAccess | src/security/capabilities.rs:314-338 | the log becomes `LogAppend` of the old log and the new entry |
| Capabilities.CapabilityManager.CleanupExpired | src/security/capabilities.rs:344-362 | only expired capabilities, and cache entries that are expired or 300 s old, are removed |
| Capabilities.CapabilityManager.GetStats | src/security/capabilities.rs:364-379 | the total is the audit log's length (at most 10,000), the successes and failures are the counts of entries with each outcome and sum to the total, and the two map sizes are reported |
| Tokens.ToToken | src/security/capabilities.rs:72-78 | a token starts with `gnos.`; encoding fails only when JSON serialisation fails, and then with a driver error |
| Tokens.FromToken | src/security/capabilities.rs:80-96 | text without the `gnos.` prefix is refused with `PermissionDenied("Invalid token format")`, and every failure is `PermissionDenied` |
| Tokens.FromToToken | src/security/capabilities.rs:72-96 | decoding a token gives back the capability it was made from, given the library round-trip laws |
| Paths.Components | src/vfs/inode.rs:85-87 | definition: Unix `Path::components` (a root, or a leading `.` of a relative path, then the pieces between separators, dropping empty pieces and inner `.`), by which paths are compared and hashed |
| Paths.StartsWith | src/security/capabilities.rs:68-70 | definition: `Path::starts_with`, the components of the base are a prefix of those of the path |
| Paths.Join | src/vfs/filesystem.rs:100 | an absolute name replaces the base; otherwise the result ends with the name |
| Paths.JoinChild | src/vfs/filesystem.rs:100 | joining a file name onto an absolute directory adds exactly that one component, so the child lies under its parent |
| Paths.TextualChildIsUnder | src/drivers/cloud.rs:41-43 | a path whose text starts with `/dir/` lies component-wise under `/dir` |
| Paths.ChildScope | src/security/capabilities.rs:68-70 | for file names `dir` and `name`, scope `/dir` covers `/dir/name` and not the other way round |
| Paths.TrailingSlashScope | src/security/capabilities.rs:68-70 | `/dir` and `/dir/` cover each other |
| Paths.SiblingScope | src/security/capabilities.rs:68-70 | scope `/a` covers neither `/b` nor anything below it, for any other name `b`, even when `a` is a textual prefix of `b` |
| Paths.ProcCoversChild | src/security/capabilities.rs:68-70 | scope `/proc` covers `/proc/llama3`, and not the other way round |
| Paths.ProcCoversTrailingSlash | src/security/capabilities.rs:68-70 | `/proc` and `/proc/` cover each other |
| Paths.ProcRejectsTextualPrefix | src/security/capabilities.rs:68-70 | scope `/proc` does not cover `/procx`, although it is a textual prefix |
| Paths.ProcRejectsOtherTree | src/security/capabilities.rs:68-70 | scope `/proc` does not cover `/cloud/x` |
| Security.DefaultConfig | src/security/mod.rs:80-87 | definition: mask 0b100 and a lifetime of 24 hours |
| Security.CapabilityRules | src/security/mod.rs:34-45 | expiry is strict (live at the expiry second, expired one second later), List follows Read, and a capability covers its own path |
| Security.TokenRoundTrip | src/security/mod.rs:47-71 | the live engine's token starts with `gnos.`, text without that prefix is refused with `PermissionDenied`, and decoding inverts encoding |
| Security.DefaultConfigReadOnly | src/security/mod.rs:80-87 | the default mask grants Read and List but not Write or Execute, and tokens live at most 86,400 s |
| Security.CheckPermission | src/security/mod.rs:98-112 | every path and operation is granted, whatever the environment token holds |
| Cli.Parse | src/main.rs:170-183 | definition: a left fold that ORs in each letter's bit and stops at the first character that is not `r`, `w` or `x`, with `Invalid permission: <ch>` |
| Cli.ParsePermissions | src/main.rs:170-183 | the loop with its early return computes exactly the fold `Parse` |
| Cli.ParseCharacterised | src/main.rs:170-183 | a parse succeeds exactly when every character is `r`, `w` or `x`; it then yields the mask of the letters present; otherwise the error names the first offending character |
| Cli.PrefixErrorPersists | src/main.rs:178 | once a prefix is rejected, the whole string is rejected with the same message |
| Cli.ParseBounded | src/main.rs:171-182 | a successful parse is at most 0b111 |
| Cli.ParseIgnoresOrder | src/main.rs:173-181 | strings with the same set of characters parse alike: order and repetition do not matter |
| Cli.ParsedMaskAllows | src/main.rs:173-177 | a parsed mask grants Read and List iff `r` occurs, Write iff `w` occurs, and Execute iff `x` occurs |
| Cli.ParseExamples | src/main.rs:170-182 | `""` gives 0, `"rw"` and `"wr"` give 6, `"rr"` and `"r"` give 4, and `"rwx"` gives 7 |
| Cli.ParseRejectsUpperCase | src/main.rs:178 | `"R"` is rejected with the message naming `R` |
| Cli.ParseRejectsSeparator | src/main.rs:178 | `"r w"` is rejected with the message naming the space |
| Cli.GeneratedCapability | src/main.rs:149-157 | the capability exists exactly when the permissions parse; it has the parsed mask, owner `cli-user`, and expiry `now + expires_hours * 3600` |
| Cli.GeneratedCapabilityLifetime | src/main.rs:150-157 | a generated capability is live for exactly `expires_hours` hours and grants Write exactly when `w` was asked for |
| Cli.GenerateToken | src/main.rs:139-168 | a bad permission string is reported as the parser's error; a printed token starts with `gnos.` |
| Cli.GeneratedTokenDecodes | src/main.rs:149-159 | the printed token decodes back to the capability the command built, given the library round-trip laws |
| DriverTraits.DefaultMetadata | src/drivers/traits.rs:39-48 | the default metadata is blank: size 0, not a directory, no MIME type, no custom fields, stamped with the clock reading |
| DriverTraits.DefaultIsTheBlankMetadata | src/drivers/traits.rs:39-48 | for a given clock reading, the default is the only blank metadata |
| Cloud.Read | src/drivers/cloud.rs:16-19 | reading never fails, and the bytes contain the UTF-8 encoding of the path |
| Cloud.Write | src/drivers/cloud.rs:21-23 | definition: always succeeds and stores nothing |
| Cloud.List | src/drivers/cloud.rs:25-27 | definition: `aws`, `gcp`, `azure`, whatever the path |
| Cloud.Exists | src/drivers/cloud.rs:29-31 | definition: always true |
| Cloud.Metadata | src/drivers/cloud.rs:33-35 | definition: the default metadata |
| Cloud.Supports | src/drivers/cloud.rs:41-43 | definition: the path text starts with `/cloud/` |
| Cloud.StubAnswers | src/drivers/cloud.rs:21-35 | writes succeed and are ignored, everything exists, the listing is exactly `aws`, `gcp`, `azure`, and the metadata is the blank default |
| Cloud.SupportedIsUnderCloud | src/drivers/cloud.rs:41-43 | every supported path lies, component-wise, under `/cloud` |
| Cloud.SupportsExamples | src/drivers/cloud.rs:41-43 | `/cloud/aws` is supported; `/cloud`, `/cloudx/aws` and `cloud/aws` are not |
| Http.Read | src/drivers/http.rs:16-19 | reading never fails, and the bytes contain the UTF-8 encoding of the path |
| Http.Write | src/drivers/http.rs:21-23 | definition: always succeeds and stores nothing |
| Http.List | src/drivers/http.rs:25-27 | definition: `http`, whatever the path |
| Http.Exists | src/drivers/http.rs:29-31 | definition: always true |
| Http.Metadata | src/drivers/http.rs:33-35 | definition: the default metadata |
| Http.Supports | src/drivers/http.rs:41-43 | definition: the path text starts with `/net/` |
| Http.StubAnswers | src/drivers/http.rs:21-35 | writes succeed and are ignored, everything exists, the listing is exactly `http`, and the metadata is the blank default |
| Http.SupportedIsUnderNet | src/drivers/http.rs:41-43 | every supported path lies, component-wise, under `/net` |
| Http.SupportsExamples | src/drivers/http.rs:41-43 | `/net/http` is supported; `/net`, `/netx/http` and `net/http` are not |
| Drivers.Driver.Supports | src/drivers/mod.rs:72 | definition: `supports`, dispatched to the AI driver's interface or to the stub driver's own test |
| Drivers.StubRoutesDisjoint | src/drivers/http.rs:41-43 | no path is claimed by both the cloud and the HTTP driver |
| Drivers.DriverRegistry.constructor | src/drivers/mod.rs:20-67 | each key is present exactly when its flag is on (for `ai`, also when its constructor succeeds), each key holds its own kind of driver, and the size is the number of drivers switched on |
| Drivers.DriverRegistry.GetDriver | src/drivers/mod.rs:69-77 | a returned driver is registered and supports the path; none is returned exactly when no registered driver supports it; the only supporting driver is always the one returned |
| Drivers.DriverRegistry.Count | src/drivers/mod.rs:79-81 | the number of registered drivers, at most three |
| Drivers.StubRoutingUnambiguous | src/drivers/mod.rs:71-74 | without the AI driver, at most one registered driver supports a path, so the choice does not depend on iteration order |
| Inodes.NewDirectory | src/vfs/inode.rs:19-31 | the inode keeps its number and path, is a directory, and its three timestamps are the one clock reading |
| Inodes.NewFile | src/vfs/inode.rs:33-45 | the inode keeps its number and path, is a regular file, and its three timestamps are the one clock reading |
| Inodes.NewInodeModes | src/vfs/inode.rs:19-45 | a directory is 4096 bytes with mode rwxr-xr-x; a file is empty with mode rw-r--r-- |
| Inodes.InodeManager.constructor | src/vfs/inode.rs:55-61 | both maps start empty and `next_ino` is 2 |
| Inodes.InodeManager.CreateDirectory | src/vfs/inode.rs:63-70 | returns `ino`; the number and the path now lead to the new directory, overwriting any earlier entry; all other entries and `next_ino` are unchanged; the two maps stay in step |
| Inodes.InodeManager.CreateFile | src/vfs/inode.rs:72-79 | as `CreateDirectory`, with a regular-file inode |
| Inodes.InodeManager.Get | src/vfs/inode.rs:81-83 | none exactly for an unknown number; otherwise the stored inode, which carries the number asked for |
| Inodes.InodeManager.FindByPath | src/vfs/inode.rs:85-87 | none exactly when the path's components are not indexed; a found number names a stored inode |
| FileSystem.Precreated | src/vfs/filesystem.rs:42-51 | definition: directories 1 to 5 at `/`, `/proc`, `/cloud`, `/net`, `/dev` and the file 10 at `/proc/llama3` |
| FileSystem.PrecreatedIndex | src/vfs/filesystem.rs:42-51 | definition: the components of those six paths, each mapped to its inode number |
| FileSystem.GnosFileSystem.constructor | src/vfs/filesystem.rs:35-60 | inodes 1 to 5 are the directories `/`, `/proc`, `/cloud`, `/net` and `/dev`, inode 10 is the file `/proc/llama3`, no handle is open and the next handle is 1 |
| FileSystem.Populate | src/vfs/filesystem.rs:42-51 | the six creations build exactly the precreated inode map and path index |
| FileSystem.Attr | src/vfs/filesystem.rs:68-84 | definition: the attribute record built from an inode, with atime the clock reading, uid and gid 1000, rdev and flags 0, and block size 4096 |
| FileSystem.GnosFileSystem.GetFileAttr | src/vfs/filesystem.rs:62-85 | an unknown inode is `PathNotFound("inode <n>")`; otherwise the attributes are `Attr` of the stored inode: the blocks are the size rounded up to 512 bytes, the kind is Directory exactly for a directory, and the link count is 2 for a directory and 1 for a file |
| FileSystem.GnosFileSystem.Lookup | src/vfs/filesystem.rs:89-110 | success exactly when the parent exists and `parent.path.join(name)` is indexed, giving that inode's attributes; EIO cannot happen while the inode maps are in step |
| FileSystem.GnosFileSystem.GetAttr | src/vfs/filesystem.rs:112-119 | the attributes, or ENOENT exactly for an unknown inode |
| FileSystem.AsUsize | src/vfs/filesystem.rs:140 | `offset as usize`: a non-negative offset is kept, and a negative one wraps to at least 2^63 and below 2^64 |
| FileSystem.GnosFileSystem.Readdir | src/vfs/filesystem.rs:121-147 | the reply is the page of the fixed listing starting at the offset, at most `capacity` entries; a negative offset gives nothing |
| FileSystem.Listing | src/vfs/filesystem.rs:131-138 | the fixed table has at most four entries per directory inode and none for any other inode |
| FileSystem.Entry | src/vfs/filesystem.rs:141 | definition: the reply entry for listing position `i`, with its inode and name, resume offset `i + 1` and kind RegularFile |
| FileSystem.Page | src/vfs/filesystem.rs:140-144 | definition: the listing's entries from the offset on, at most `capacity` of them |
| FileSystem.FillReply | src/vfs/filesystem.rs:140-144 | the loop with its `break` adds exactly the page of entries from `skip` that fits |
| FileSystem.PageContents | src/vfs/filesystem.rs:140-144 | a page holds the listing's entries in order from the offset, as many as fit, and entry `i` carries resume offset `i + 1` |
| FileSystem.PageResume | src/vfs/filesystem.rs:140-144 | resuming at the last returned offset continues the listing exactly where the previous reply stopped |
| FileSystem.GnosFileSystem.Open | src/vfs/filesystem.rs:149-169 | a directory or unknown inode gives ENOENT and changes nothing; otherwise the new handle is the old `next_fh`, which was not in use, `next_fh` grows by one, and the handle records the path with no data |
| FileSystem.GnosFileSystem.Read | src/vfs/filesystem.rs:171-199 | an unknown handle gives EBADF; otherwise the window of `GNOS Virtual File: <path>\n` at the offset, at most `size` bytes |
| FileSystem.FileContent | src/vfs/filesystem.rs:186 | definition: the UTF-8 bytes of `GNOS Virtual File: <path>` and a newline |
| FileSystem.Window | src/vfs/filesystem.rs:188-195 | a read window is at most `size` bytes, is empty past the end, and is a prefix of the data from the offset |
| FileSystem.WindowsCompose | src/vfs/filesystem.rs:188-195 | two consecutive reads return what one read of the combined size returns |
| FileSystem.GnosFileSystem.Write | src/vfs/filesystem.rs:201-222 | an unknown handle gives EBADF and changes nothing; otherwise that handle's buffer becomes the whole data, whatever the offset, and the reply is the length as a `u32`; no read changes |
| FileSystem.AsU32 | src/vfs/filesystem.rs:218 | `as u32`: the result is below 2^32 and equals the input when that fits |
| FileSystem.GnosFileSystem.Release | src/vfs/filesystem.rs:224-237 | the handle is removed, the reply is always success, and a later read of it gives EBADF |
| FileSystem.OpenHandlesAreLlama | src/vfs/filesystem.rs:149-169 | every open handle names `/proc/llama3`, and a full read returns its one-line banner |
| FileSystem.LookupFindsProc | src/vfs/filesystem.rs:89-110 | looking up `proc` under the root finds the directory inode 2 |
| FileSystem.LookupFindsLlama | src/vfs/filesystem.rs:89-110 | looking up `llama3` under `/proc` finds the file inode 10 |
| FileSystem.ListingOffersMissingInode | src/vfs/filesystem.rs:134 | `readdir` of `/cloud` offers `aws` as inode 20, which does not exist, and `lookup` of `aws` there is ENOENT |
| FileSystem.ListingMislabelsDirectories | src/vfs/filesystem.rs:132-141 | `readdir` of the root reports `proc` as a regular file while `getattr` reports it as a directory |

## Left out

- Concurrency is not modelled: the `Arc`/`RwLock` wrappers, `async`, and interleavings of callbacks. Every operation is one sequential step.
- The periodic cleanup task (`start_cleanup_task`) is an endless timer loop. Instead, `CleanupExpired` is called explicitly with `now`.
- Clocks are parameters. All readings are whole seconds, so sub-second differences in expiry and cache age are not modelled. `GnosFileSystem.constructor` stamps all precreated inodes with one reading; the source reads the clock per inode.
- JSON, base64, UTF-8 decoding, HMAC-SHA256 and SHA-256 are uninterpreted parameters. Their round-trip laws are assumed per call site. No cryptographic property is claimed.
- `src/drivers/ai.rs` is not part of this model. The AI driver is any `DriverTraits.DriverOps` record, and its constructor's outcome is a parameter of `DriverRegistry.constructor`.
- Driver methods other than `supports` and `name` are not dispatched through `Drivers.Driver`. Nothing in the core calls them through the registry.
- `DriverTraits` represents the `GnosDriver` trait as a record of functions.
- `Capabilities.Sign` returns the signed capability instead of mutating it in place. The capability is a value type.
- `Cloud.Read` and `Http.Read` state only that the output contains the path's bytes. The emoji status text is written out but no other property of it is proved.
- `get_audit_log` returns a copy of the log. In the model the log is the field `CapabilityManager.auditLog`, so there is no separate member.
- Tokens.ToToken: a serialisation failure is `Driver("Failed to serialize capability")` without the colon and serde's error text that the source appends. The JSON serialiser is a parameter that reports only whether it failed. The same holds for `Cli.GenerateToken` and the live engine's `to_token`.
- Logging (`tracing` macros), printing in the command-line tool, argument parsing, configuration loading and mounting are left out. They are I/O.
- Widths are not modelled on these operations, which use unbounded integers:
  - `GnosFileSystem.Open` does not model the `u64` overflow of `next_fh`;
  - `Cli.GeneratedCapability` does not model the `u64` overflow of `expires_hours * 3600`;
  - `Capabilities.NewCapability` does not model `SystemTime` overflow of `now + duration`.
- `GnosFileSystem.Read` does not model the overflow of `start + size` when a negative offset wraps to a huge `usize`. Rust panics there in debug builds and wraps in release builds. In release builds the reply is empty, which is what the model returns.
- `GnosFileSystem.Readdir` models the fuser reply buffer as a capacity counted in entries. The real buffer's byte sizing is in fuser.
- `GnosFileSystem.Write` reports the length modulo 2^32 (`AsU32`), as `as u32` does.
- Revocation does not clear the cache entry of a token. Removal is by capability hash, while the cache is keyed by token text. `Capabilities.CapabilityManager.RevokeCapability` states exactly this, and no "revocation beats cache" property is claimed.

=== FILE: bytes.dfy ===
/** Bytes and the two text conversions the core performs itself: `str::as_bytes`
    (UTF-8 encoding) and `{}` formatting of an unsigned integer. */
module Bytes {

  type Byte = b: int | 0 <= b < 256

  /** UTF-8 encoding of one Unicode scalar value. */
  function CharBytes(c: char): (r: seq<Byte>)
    ensures 1 <= |r| <= 4
    ensures (c as int < 0x80) <==> |r| == 1
    ensures |r| == 1 ==> r[0] == c as int
  {
    var n := c as int;
    if n < 0x80 then [n]
    else if n < 0x800 then [0xC0 + n / 0x40, 0x80 + n % 0x40]
    else if n < 0x1_0000 then [0xE0 + n / 0x1000, 0x80 + (n / 0x40) % 0x40, 0x80 + n % 0x40]
    else [0xF0 + n / 0x4_0000, 0x80 + (n / 0x1000) % 0x40, 0x80 + (n / 0x40) % 0x40, 0x80 + n % 0x40]
  }

  /** UTF-8 encoding of a string (`String::into_bytes`, `str::as_bytes`). */
  function Utf8Encode(s: string): (r: seq<Byte>)
    ensures |r| >= |s|
  {
    if s == [] then [] else CharBytes(s[0]) + Utf8Encode(s[1..])
  }

  /** Encoding distributes over concatenation. */
  lemma {:induction false} Utf8EncodeAppend(a: string, b: string)
    ensures Utf8Encode(a + b) == Utf8Encode(a) + Utf8Encode(b)
  {
    if a == [] {
      assert a + b == b;
    } else {
      assert (a + b)[1..] == a[1..] + b;
      Utf8EncodeAppend(a[1..], b);
    }
  }

  /** `b` occurs as a contiguous piece of `s`. */
  predicate IsInfix<T(==)>(b: seq<T>, s: seq<T>)
  {
    exists i, j :: 0 <= i <= j <= |s| && s[i..j] == b
  }

  /** The encoding of the middle of a three-part string occurs in the encoding of the whole. */
  lemma Utf8EncodeInfix(a: string, b: string, c: string)
    ensures IsInfix(Utf8Encode(b), Utf8Encode(a + b + c))
  {
    Utf8EncodeAppend(a + b, c);
    Utf8EncodeAppend(a, b);
    var whole := Utf8Encode(a) + Utf8Encode(b) + Utf8Encode(c);
    var i := |Utf8Encode(a)|;
    var j := i + |Utf8Encode(b)|;
    assert whole[i..j] == Utf8Encode(b);
  }

  function DigitChar(d: nat): (c: char)
    requires d < 10
    ensures '0' <= c <= '9'
    ensures c as int - '0' as int == d
  {
    ('0' as int + d) as char
  }

  /** Decimal text of a natural number, as `format!("{}", n)` prints it. */
  function Decimal(n: nat): (r: string)
    ensures |r| >= 1
    ensures forall i :: 0 <= i < |r| ==> '0' <= r[i] <= '9'
    ensures (|r| == 1) <==> n < 10
  {
    if n < 10 then [DigitChar(n)] else Decimal(n / 10) + [DigitChar(n % 10)]
  }

  /** Reading the digits back gives the number. */
  function DigitsValue(s: string): (v: nat)
    requires forall i :: 0 <= i < |s| ==> '0' <= s[i] <= '9'
  {
    if s == [] then 0 else DigitsValue(s[..|s| - 1]) * 10 + (s[|s| - 1] as int - '0' as int)
  }

  lemma {:induction false} DecimalValue(n: nat)
    ensures DigitsValue(Decimal(n)) == n
  {
    if n >= 10 {
      var s := Decimal(n);
      assert s[..|s| - 1] == Decimal(n / 10);
      DecimalValue(n / 10);
      assert DigitsValue(s) == (n / 10) * 10 + n % 10;
    }
  }

  /** Distinct numbers print differently. */
  lemma DecimalInjective(m: nat, n: nat)
    requires Decimal(m) == Decimal(n)
    ensures m == n
  {
    DecimalValue(m);
    DecimalValue(n);
  }
}

=== FILE: capabilities.dfy ===
/** The full capability engine: capabilities with issue time and an HMAC signature,
    and a manager holding the active capabilities, a validation cache and a bounded
    audit log. Time is whole seconds since the epoch, passed in as `now`. */
module Capabilities {
  import opened Errors
  import opened Bytes
  import opened Paths
  import opened Permissions
  import Tokens

  /** HMAC-SHA256 (key, data) and SHA-256, as library functions. `ring::hmac::verify`
      is recomputing the tag and comparing it. */
  datatype Crypto = Crypto(
    hmacSha256: (seq<Byte>, seq<Byte>) -> seq<Byte>,
    sha256: seq<Byte> -> seq<Byte>)

  datatype Capability = Capability(
    path: Path,
    permissions: bv8,
    expiration: nat,
    owner: string,
    issuedAt: nat,
    signature: Option<string>)
  {
    predicate Allows(op: Operation)
    {
      Permissions.Allows(permissions, op)
    }

    /** Strict: a capability is still live at the second it expires. */
    predicate IsExpired(now: nat)
    {
      now > expiration
    }

    /** Component-wise scope test: the requested path starts with the capability's path. */
    predicate IsValidForPath(p: Path)
    {
      StartsWith(p, path)
    }
  }

  type Codec = Tokens.Codec<Capability>

  /** `Capability::new`: issued now, expiring `duration` seconds later, unsigned. */
  function NewCapability(path: Path, permissions: bv8, owner: string, duration: nat, now: nat): (c: Capability)
    ensures c.path == path && c.permissions == permissions && c.owner == owner
    ensures c.issuedAt == now && c.signature == None
  {
    Capability(path, permissions, now + duration, owner, now, None)
  }

  /** A new capability is live up to and including `now + duration`, and expired after. */
  lemma NewCapabilityLifetime(path: Path, permissions: bv8, owner: string, duration: nat, now: nat, t: nat)
    ensures NewCapability(path, permissions, owner, duration, now).IsExpired(t) <==> t > now + duration
    ensures !NewCapability(path, permissions, owner, duration, now).IsExpired(now)
  {
  }

  /** The text that is signed: `path:permissions:expiry-seconds:owner`. */
  function SignedData(c: Capability): string
  {
    c.path + ":" + Decimal(c.permissions as nat) + ":" + Decimal(c.expiration) + ":" + c.owner
  }

  function Tag(c: Capability, secret: seq<Byte>, crypto: Crypto): seq<Byte>
  {
    crypto.hmacSha256(secret, Utf8Encode(SignedData(c)))
  }

  /** `sign`: store the base64 text of the HMAC tag; nothing else changes. */
  function Sign(c: Capability, secret: seq<Byte>, crypto: Crypto, codec: Codec): (r: Capability)
    ensures r.signature.Some?
    ensures r.(signature := c.signature) == c
  {
    c.(signature := Some(codec.base64Encode(Tag(c, secret, crypto))))
  }

  /** `verify`: false without a signature or when it does not decode; otherwise the
      decoded tag must equal the recomputed one. */
  predicate Verify(c: Capability, secret: seq<Byte>, crypto: Crypto, codec: Codec)
  {
    match c.signature
    case None => false
    case Some(text) =>
      match codec.base64Decode(text)
      case None => false
      case Some(tag) => Tag(c, secret, crypto) == tag
  }

  /** An unsigned capability never verifies. */
  lemma UnsignedNeverVerifies(c: Capability, secret: seq<Byte>, crypto: Crypto, codec: Codec)
    requires c.signature.None?
    ensures !Verify(c, secret, crypto, codec)
  {
  }

  /** Signing then verifying with the same key succeeds (given that base64 decodes its
      own output for this tag). */
  lemma SignThenVerify(c: Capability, secret: seq<Byte>, crypto: Crypto, codec: Codec)
    requires codec.base64Decode(codec.base64Encode(Tag(c, secret, crypto))) == Some(Tag(c, secret, crypto))
    ensures Verify(Sign(c, secret, crypto, codec), secret, crypto, codec)
  {
    var s := Sign(c, secret, crypto, codec);
    assert SignedData(s) == SignedData(c);
  }

  /** The signature does not cover `issued_at`: changing it keeps a signature valid. */
  lemma SignatureIgnoresIssuedAt(c: Capability, t: nat, secret: seq<Byte>, crypto: Crypto, codec: Codec)
    ensures Verify(c.(issuedAt := t), secret, crypto, codec) == Verify(c, secret, crypto, codec)
  {
    assert SignedData(c.(issuedAt := t)) == SignedData(c);
  }

  /** The signed text is not a canonical encoding: a ':' inside the path or the owner
      lets two different capabilities share it, and so share every signature. */
  lemma SignedDataAmbiguous()
    ensures var a := Capability("/a", 4, 5, "6:y", 0, None);
            var b := Capability("/a:4", 5, 6, "y", 0, None);
            a != b && SignedData(a) == SignedData(b)
  {
    assert Decimal(4) == "4" && Decimal(5) == "5" && Decimal(6) == "6";
  }

  /** The signed text does bind the mask: changing only the permissions changes it. */
  lemma SignedDataBindsPermissions(c: Capability, p: bv8)
    requires p as nat != c.permissions as nat
    ensures SignedData(c.(permissions := p)) != SignedData(c)
  {
    var d := c.(permissions := p);
    var head := c.path + ":";
    var tail := ":" + Decimal(c.expiration) + ":" + c.owner;
    SignedDataShape(c, head, tail);
    SignedDataShape(d, head, tail);
    if SignedData(d) == SignedData(c) {
      MiddleDetermined(head, Decimal(p as nat), Decimal(c.permissions as nat), tail);
      DecimalInjective(c.permissions as nat, p as nat);
    }
  }

  /** The signed text is the path, the mask's digits, and the rest. */
  lemma SignedDataShape(c: Capability, head: string, tail: string)
    requires head == c.path + ":" && tail == ":" + Decimal(c.expiration) + ":" + c.owner
    ensures SignedData(c) == head + Decimal(c.permissions as nat) + tail
  {
  }

  /** Equal texts with the same surrounding pieces have the same middle. */
  lemma MiddleDetermined(head: string, x: string, y: string, tail: string)
    requires head + x + tail == head + y + tail
    ensures x == y
  {
    assert |x| == |y|;
    assert (head + x + tail)[|head|..|head| + |x|] == x;
    assert (head + y + tail)[|head|..|head| + |y|] == y;
  }

  /** The process configuration of the engine. */
  datatype SecurityConfig = SecurityConfig(
    defaultPermissions: bv8,
    maxTokenLifetime: nat,
    requireSignatures: bool,
    hmacSecret: seq<Byte>,
    trustedIssuers: seq<string>)

  const DevSecret: string := "gnos-dev-secret-change-in-prod!!"

  /** `SecurityConfig::default`. */
  function DefaultConfig(): SecurityConfig
  {
    SecurityConfig(4, 24 * 3600, true, Utf8Encode(DevSecret), ["gnos-cli", "gnos-web"])
  }

  /** The default configuration is read-only (Read and List), caps tokens at one day,
      demands signatures and carries a 32-byte secret. */
  lemma DefaultConfigFacts()
    ensures var d := DefaultConfig();
      && Permissions.Allows(d.defaultPermissions, Read) && Permissions.Allows(d.defaultPermissions, List)
      && !Permissions.Allows(d.defaultPermissions, Write) && !Permissions.Allows(d.defaultPermissions, Execute)
      && d.maxTokenLifetime == 86400 && d.requireSignatures && |d.hmacSecret| == 32
  {
    DevSecretLength();
  }

  /** The development secret is exactly 32 bytes, so copying it into the 32-byte
      buffer (`copy_from_slice`, which panics on a length mismatch) succeeds. */
  lemma DevSecretLength()
    ensures |Utf8Encode(DevSecret)| == 32
  {
    var a, b, c, d := "gnos-dev", "-secret-", "change-i", "n-prod!!";
    SecretChunks();
    SecretChunk1();
    SecretChunk2();
    SecretChunk3();
    SecretChunk4();
    Utf8EncodeAppend(a, b);
    Utf8EncodeAppend(a + b, c);
    Utf8EncodeAppend(a + b + c, d);
  }

  /** The secret as four ASCII pieces of eight characters. */
  lemma SecretChunks()
    ensures DevSecret == "gnos-dev" + "-secret-" + "change-i" + "n-prod!!"
  {
  }

  // One lemma per piece: each keeps the solver's unrolling of `Utf8Encode` on a
  // string literal to eight characters.

  lemma SecretChunk1()
    ensures |Utf8Encode("gnos-dev")| == 8
  {
    ChunkLength("gnos-dev");
  }

  lemma SecretChunk2()
    ensures |Utf8Encode("-secret-")| == 8
  {
    ChunkLength("-secret-");
  }

  lemma SecretChunk3()
    ensures |Utf8Encode("change-i")| == 8
  {
    ChunkLength("change-i");
  }

  lemma SecretChunk4()
    ensures |Utf8Encode("n-prod!!")| == 8
  {
    ChunkLength("n-prod!!");
  }

  lemma ChunkLength(s: string)
    requires |s| == 8 && IsAscii(s)
    ensures |Utf8Encode(s)| == 8
  {
    AsciiLength(s);
  }

  /** Every character of `s` is a one-byte (ASCII) character. */
  predicate IsAscii(s: string)
  {
    s == [] || (s[0] as int < 0x80 && IsAscii(s[1..]))
  }

  lemma {:induction false} AsciiLength(s: string)
    requires IsAscii(s)
    ensures |Utf8Encode(s)| == |s|
  {
    if s != [] {
      AsciiLength(s[1..]);
    }
  }

  // ---------------------------------------------------------------- audit log

  datatype AuditEntry = AuditEntry(
    timestamp: nat,
    operation: Operation,
    path: Path,
    owner: string,
    success: bool,
    reason: Option<string>)

  const MaxAuditEntries: nat := 10_000
  const AuditDrain: nat := 5_000

  /** `log_access`: push, then drop the oldest 5,000 once the log exceeds 10,000. */
  function LogAppend(log: seq<AuditEntry>, e: AuditEntry): (r: seq<AuditEntry>)
    ensures |r| > 0 && r[|r| - 1] == e
    ensures |log| <= MaxAuditEntries ==> |r| <= MaxAuditEntries
    ensures |log| < MaxAuditEntries ==> r == log + [e]
    ensures |log| >= MaxAuditEntries ==> r == (log + [e])[AuditDrain..]
  {
    var l := log + [e];
    if |l| > MaxAuditEntries then l[AuditDrain..] else l
  }

  /** Whatever is dropped, the log stays the newest entries in order: a suffix of the
      old log followed by the new entry. */
  lemma LogAppendSuffix(log: seq<AuditEntry>, e: AuditEntry)
    ensures var r := LogAppend(log, e);
      |r| <= |log| + 1 && r == (log + [e])[|log| + 1 - |r|..]
  {
  }

  function SuccessCount(log: seq<AuditEntry>): nat
  {
    if log == [] then 0 else SuccessCount(log[..|log| - 1]) + (if log[|log| - 1].success then 1 else 0)
  }

  function FailureCount(log: seq<AuditEntry>): nat
  {
    if log == [] then 0 else FailureCount(log[..|log| - 1]) + (if log[|log| - 1].success then 0 else 1)
  }

  /** Every audit entry is either a success or a failure. */
  lemma {:induction false} CountsPartition(log: seq<AuditEntry>)
    ensures SuccessCount(log) + FailureCount(log) == |log|
  {
    if log != [] {
      CountsPartition(log[..|log| - 1]);
    }
  }

  /** Appending below the cap adds one to the matching counter. */
  lemma AppendCounts(log: seq<AuditEntry>, e: AuditEntry)
    requires |log| < MaxAuditEntries
    ensures SuccessCount(LogAppend(log, e)) == SuccessCount(log) + (if e.success then 1 else 0)
    ensures FailureCount(LogAppend(log, e)) == FailureCount(log) + (if e.success then 0 else 1)
  {
    assert (log + [e])[..|log|] == log;
  }

  // ------------------------------------------------------------ validation

  datatype CacheEntry = CacheEntry(capability: Capability, cachedAt: nat)

  /** `SystemTime::elapsed().unwrap_or_default()`: zero when the clock went backwards. */
  function Elapsed(now: nat, since: nat): nat
  {
    if now >= since then now - since else 0
  }

  const CacheTtl: nat := 60
  const CacheRetention: nat := 300

  /** A cache entry answers for the token: cached under 60 s ago and still unexpired. */
  predicate CacheHit(cache: map<string, CacheEntry>, token: string, now: nat)
  {
    token in cache && Elapsed(now, cache[token].cachedAt) < CacheTtl && !cache[token].capability.IsExpired(now)
  }

  datatype Validation = Cached(capability: Capability) | Parsed(capability: Capability) | Rejected(error: GnosError)

  /** `validate_token` as a decision: cache, then parse, then expiry, then signature. */
  function Validate(config: SecurityConfig, codec: Codec, crypto: Crypto,
                    cache: map<string, CacheEntry>, token: string, now: nat): (v: Validation)
    ensures v.Cached? <==> CacheHit(cache, token, now)
    ensures v.Cached? ==> v.capability == cache[token].capability
    ensures !v.Rejected? ==> !v.capability.IsExpired(now)
    ensures v.Parsed? ==> Tokens.FromToken(codec, token) == Ok(v.capability)
    ensures v.Parsed? && config.requireSignatures ==> Verify(v.capability, config.hmacSecret, crypto, codec)
    ensures v.Rejected? ==> v.error.PermissionDenied? || v.error.CapabilityExpired?
  {
    if CacheHit(cache, token, now) then Cached(cache[token].capability)
    else
      match Tokens.FromToken(codec, token)
      case Err(e) => Rejected(e)
      case Ok(c) =>
        if c.IsExpired(now) then Rejected(CapabilityExpired)
        else if config.requireSignatures && !Verify(c, config.hmacSecret, crypto, codec) then
          Rejected(PermissionDenied("Invalid signature"))
        else Parsed(c)
  }

  /** An expired token is reported as expired before its signature is looked at, and a
      live token with a bad signature is denied when signatures are required. */
  lemma ValidateRejections(config: SecurityConfig, codec: Codec, crypto: Crypto,
                           cache: map<string, CacheEntry>, token: string, now: nat, c: Capability)
    requires !CacheHit(cache, token, now) && Tokens.FromToken(codec, token) == Ok(c)
    ensures c.IsExpired(now) ==> Validate(config, codec, crypto, cache, token, now) == Rejected(CapabilityExpired)
    ensures !c.IsExpired(now) && config.requireSignatures && !Verify(c, config.hmacSecret, crypto, codec) ==>
      Validate(config, codec, crypto, cache, token, now) == Rejected(PermissionDenied("Invalid signature"))
    ensures !c.IsExpired(now) && !config.requireSignatures ==>
      Validate(config, codec, crypto, cache, token, now) == Parsed(c)
    ensures !c.IsExpired(now) && (config.requireSignatures ==> Verify(c, config.hmacSecret, crypto, codec)) ==>
      Validate(config, codec, crypto, cache, token, now) == Parsed(c)
  {
  }

  /** The cache after validation: only a freshly parsed capability is stored, under the token text. */
  function CacheAfter(cache: map<string, CacheEntry>, token: string, v: Validation, now: nat): (r: map<string, CacheEntry>)
    ensures v.Parsed? ==> r == cache[token := CacheEntry(v.capability, now)]
    ensures !v.Parsed? ==> r == cache
  {
    if v.Parsed? then cache[token := CacheEntry(v.capability, now)] else cache
  }

  /** Once validated, a token is answered from the cache for the next minute while it lives. */
  lemma ParsedThenCached(config: SecurityConfig, codec: Codec, crypto: Crypto,
                         cache: map<string, CacheEntry>, token: string, now: nat, later: nat)
    requires Validate(config, codec, crypto, cache, token, now).Parsed?
    requires var c := Validate(config, codec, crypto, cache, token, now).capability;
             now <= later < now + CacheTtl && !c.IsExpired(later)
    ensures var v := Validate(config, codec, crypto, cache, token, now);
            Validate(config, codec, crypto, CacheAfter(cache, token, v, now), token, later) == Cached(v.capability)
  {
  }

  /** `hash_capability`: SHA-256 of `path:permissions:owner:issued-seconds`, base64 encoded. */
  function HashCapability(c: Capability, crypto: Crypto, codec: Codec): string
  {
    codec.base64Encode(crypto.sha256(Utf8Encode(c.path + ":" + Decimal(c.permissions as nat) + ":" + c.owner + ":" + Decimal(c.issuedAt))))
  }

  /** The capability id ignores expiry and signature, so signing does not move it. */
  lemma HashIgnoresExpiryAndSignature(c: Capability, e: nat, s: Option<string>, crypto: Crypto, codec: Codec)
    ensures HashCapability(c.(expiration := e, signature := s), crypto, codec) == HashCapability(c, crypto, codec)
  {
  }

  // ----------------------------------------------------------- decisions

  /** The three conditions under which a capability grants `op` on `path` at `now`. */
  predicate Covers(c: Capability, path: Path, op: Operation, now: nat)
  {
    c.IsValidForPath(path) && c.Allows(op) && !c.IsExpired(now)
  }

  /** Some active capability grants `op` on `path` at `now`. */
  predicate ActiveGrants(caps: map<string, Capability>, path: Path, op: Operation, now: nat)
  {
    exists k :: k in caps && Covers(caps[k], path, op, now)
  }

  /** Some active capability owned by `owner` grants `op` on `path` at `now`. */
  predicate ActiveGrantsTo(caps: map<string, Capability>, path: Path, op: Operation, now: nat, owner: string)
  {
    exists k :: k in caps && Covers(caps[k], path, op, now) && caps[k].owner == owner
  }

  /** The capability taken from the `GNOS_TOKEN` variable when it validates, covers the
      path and allows the operation (expiry was checked by validation). */
  function EnvGrant(config: SecurityConfig, codec: Codec, crypto: Crypto, cache: map<string, CacheEntry>,
                    envToken: Option<string>, path: Path, op: Operation, now: nat): (r: Option<Capability>)
    ensures r.Some? ==> envToken.Some? && Covers(r.value, path, op, now)
    ensures r.Some? ==> !Validate(config, codec, crypto, cache, envToken.value, now).Rejected?
    ensures envToken.Some? ==>
      var v := Validate(config, codec, crypto, cache, envToken.value, now);
      !v.Rejected? && v.capability.IsValidForPath(path) && v.capability.Allows(op) ==> r == Some(v.capability)
  {
    match envToken
    case None => None
    case Some(token) =>
      var v := Validate(config, codec, crypto, cache, token, now);
      if !v.Rejected? && v.capability.IsValidForPath(path) && v.capability.Allows(op) then Some(v.capability)
      else None
  }

  /** The search over the active capabilities, in the map's (unspecified) iteration order. */
  method FindCovering(caps: map<string, Capability>, path: Path, op: Operation, now: nat) returns (found: Option<string>)
    ensures found.Some? ==> found.value in caps && Covers(caps[found.value], path, op, now)
    ensures found.None? <==> forall k :: k in caps ==> !Covers(caps[k], path, op, now)
  {
    var keys := caps.Keys;
    while keys != {}
      invariant keys <= caps.Keys
      invariant forall k :: k in caps && k !in keys ==> !Covers(caps[k], path, op, now)
      decreases |keys|
    {
      var k :| k in keys;
      if Covers(caps[k], path, op, now) {
        return Some(k);
      }
      keys := keys - {k};
    }
    return None;
  }

  const DenialReason: string := "No valid capability found"

  function DenialMessage(path: Path, op: Operation): string
  {
    "Access denied to " + path + " for " + OperationName(op) + ": " + DenialReason
  }

  /** `grant_capability`'s capability: lifetime capped at the configured maximum,
      signed only when signatures are required. */
  function Granted(config: SecurityConfig, codec: Codec, crypto: Crypto,
                   path: Path, permissions: bv8, owner: string, duration: nat, now: nat): (c: Capability)
    ensures c.path == path && c.permissions == permissions && c.owner == owner && c.issuedAt == now
    ensures c.expiration - c.issuedAt == if duration < config.maxTokenLifetime then duration else config.maxTokenLifetime
    ensures c.signature.Some? <==> config.requireSignatures
  {
    var lifetime := if duration < config.maxTokenLifetime then duration else config.maxTokenLifetime;
    var c := NewCapability(path, permissions, owner, lifetime, now);
    if config.requireSignatures then Sign(c, config.hmacSecret, crypto, codec) else c
  }

  /** A granted token, presented before it expires and before it is cached, validates to
      exactly the granted capability (given the library round-trip laws). */
  lemma GrantedTokenValidates(config: SecurityConfig, codec: Codec, crypto: Crypto, cache: map<string, CacheEntry>,
                              path: Path, permissions: bv8, owner: string, duration: nat, now: nat, t: nat)
    requires var c := Granted(config, codec, crypto, path, permissions, owner, duration, now);
      && Tokens.LawsHoldAt(codec, c)
      && codec.base64Decode(codec.base64Encode(Tag(c, config.hmacSecret, crypto))) == Some(Tag(c, config.hmacSecret, crypto))
      && Tokens.ToToken(codec, c).Ok? && Tokens.ToToken(codec, c).value !in cache
      && !c.IsExpired(t)
    ensures var c := Granted(config, codec, crypto, path, permissions, owner, duration, now);
      Validate(config, codec, crypto, cache, Tokens.ToToken(codec, c).value, t) == Parsed(c)
  {
    var c := Granted(config, codec, crypto, path, permissions, owner, duration, now);
    Tokens.FromToToken(codec, c);
    if config.requireSignatures {
      var u := NewCapability(path, permissions, owner, c.expiration - now, now);
      assert c == Sign(u, config.hmacSecret, crypto, codec);
      assert Tag(c, config.hmacSecret, crypto) == Tag(u, config.hmacSecret, crypto) by {
        assert SignedData(c) == SignedData(u);
      }
      SignThenVerify(u, config.hmacSecret, crypto, codec);
    }
  }

  // ------------------------------------------------------------- cleanup

  /** `retain(|_, cap| !cap.is_expired())`. */
  function LiveCapabilities(m: map<string, Capability>, now: nat): (r: map<string, Capability>)
    ensures forall k :: k in r <==> k in m && !m[k].IsExpired(now)
    ensures forall k :: k in r ==> r[k] == m[k]
  {
    map k | k in m && !m[k].IsExpired(now) :: m[k]
  }

  /** The cache keeps entries that are unexpired and cached under 300 s ago. */
  function LiveCache(cache: map<string, CacheEntry>, now: nat): (r: map<string, CacheEntry>)
    ensures forall k :: k in r <==> k in cache && !cache[k].capability.IsExpired(now) && Elapsed(now, cache[k].cachedAt) < CacheRetention
    ensures forall k :: k in r ==> r[k] == cache[k]
  {
    map k | k in cache && !cache[k].capability.IsExpired(now) && Elapsed(now, cache[k].cachedAt) < CacheRetention :: cache[k]
  }

  /** Cleaning up never changes an access decision taken at the same instant: only
      expired capabilities and cache entries too old to be hits are dropped. */
  lemma CleanupPreservesDecisions(config: SecurityConfig, codec: Codec, crypto: Crypto,
                                  m: map<string, Capability>, cache: map<string, CacheEntry>,
                                  token: string, path: Path, op: Operation, now: nat)
    ensures ActiveGrants(m, path, op, now) <==> ActiveGrants(LiveCapabilities(m, now), path, op, now)
    ensures Validate(config, codec, crypto, LiveCache(cache, now), token, now) == Validate(config, codec, crypto, cache, token, now)
  {
    if exists k :: k in m && Covers(m[k], path, op, now) {
      var k :| k in m && Covers(m[k], path, op, now);
      assert k in LiveCapabilities(m, now);
    }
    assert CacheHit(LiveCache(cache, now), token, now) <==> CacheHit(cache, token, now);
  }

  /** Cleaning up twice at the same instant is cleaning up once, and a later cleanup
      subsumes an earlier one. */
  lemma CleanupIdempotent(m: map<string, Capability>, cache: map<string, CacheEntry>, now: nat, later: nat)
    requires now <= later
    ensures LiveCapabilities(LiveCapabilities(m, now), now) == LiveCapabilities(m, now)
    ensures LiveCapabilities(LiveCapabilities(m, now), later) == LiveCapabilities(m, later)
    ensures LiveCache(LiveCache(cache, now), now) == LiveCache(cache, now)
    ensures LiveCache(LiveCache(cache, now), later) == LiveCache(cache, later)
  {
    assert LiveCapabilities(LiveCapabilities(m, now), now).Keys == LiveCapabilities(m, now).Keys;
    assert LiveCapabilities(LiveCapabilities(m, now), later).Keys == LiveCapabilities(m, later).Keys;
    assert LiveCache(LiveCache(cache, now), now).Keys == LiveCache(cache, now).Keys;
    assert LiveCache(LiveCache(cache, now), later).Keys == LiveCache(cache, later).Keys;
  }

  // ------------------------------------------------------------- statistics

  datatype CapabilityStats = CapabilityStats(
    activeCapabilities: nat,
    cachedCapabilities: nat,
    totalAuditEntries: nat,
    successfulAccesses: nat,
    failedAccesses: nat)

  // ---------------------------------------------------------------- manager

  class CapabilityManager {
    const config: SecurityConfig
    const codec: Codec
    const crypto: Crypto
    var activeCapabilities: map<string, Capability>
    var capabilityCache: map<string, CacheEntry>
    var auditLog: seq<AuditEntry>

    ghost predicate Valid()
      reads this
    {
      |auditLog| <= MaxAuditEntries
    }

    constructor (config: SecurityConfig, codec: Codec, crypto: Crypto)
      ensures Valid()
      ensures this.config == config && this.codec == codec && this.crypto == crypto
      ensures activeCapabilities == map[] && capabilityCache == map[] && auditLog == []
    {
      this.config := config;
      this.codec := codec;
      this.crypto := crypto;
      activeCapabilities := map[];
      capabilityCache := map[];
      auditLog := [];
    }

    function LastEntry(): AuditEntry
      reads this
      requires |auditLog| > 0
    {
      auditLog[|auditLog| - 1]
    }

    /** `check_permission`: the environment token first, then any active capability;
        exactly one audit entry records the outcome. */
    method CheckPermission(envToken: Option<string>, path: Path, op: Operation, now: nat) returns (r: GResult<Unit>)
      requires Valid()
      modifies this`capabilityCache, this`auditLog
      ensures Valid()
      ensures activeCapabilities == old(activeCapabilities)
      ensures capabilityCache == if envToken.None? then old(capabilityCache) else
        CacheAfter(old(capabilityCache), envToken.value,
                   Validate(config, codec, crypto, old(capabilityCache), envToken.value, now), now)
      ensures var env := EnvGrant(config, codec, crypto, old(capabilityCache), envToken, path, op, now);
        r.Ok? <==> env.Some? || ActiveGrants(activeCapabilities, path, op, now)
      ensures |auditLog| > 0 && auditLog == LogAppend(old(auditLog), LastEntry())
      ensures LastEntry().success == r.Ok? && LastEntry().path == path
      ensures LastEntry().operation == op && LastEntry().timestamp == now
      ensures var env := EnvGrant(config, codec, crypto, old(capabilityCache), envToken, path, op, now);
        r.Ok? ==> (LastEntry().reason == None &&
          if env.Some? then LastEntry().owner == env.value.owner
          else ActiveGrantsTo(activeCapabilities, path, op, now, LastEntry().owner))
      ensures r.Err? ==> r.error == PermissionDenied(DenialMessage(path, op))
      ensures r.Err? ==> LastEntry().owner == "unknown" && LastEntry().reason == Some(DenialReason)
    {
      var grantee := Authorize(envToken, path, op, now);
      RecordDecision(grantee, path, op, now);
      r := if grantee.Some? then Ok(Unit) else Err(PermissionDenied(DenialMessage(path, op)));
    }

    /** The audit half of `check_permission`: one entry naming the grantee, or a denial
        by "unknown" with its reason. */
    method RecordDecision(grantee: Option<string>, path: Path, op: Operation, now: nat)
      requires Valid()
      modifies this`auditLog
      ensures Valid()
      ensures |auditLog| > 0 && auditLog == LogAppend(old(auditLog), LastEntry())
      ensures LastEntry() == if grantee.Some? then AuditEntry(now, op, path, grantee.value, true, None)
                             else AuditEntry(now, op, path, "unknown", false, Some(DenialReason))
    {
      if grantee.Some? {
        LogAccess(path, op, grantee.value, true, None, now);
      } else {
        LogAccess(path, op, "unknown", false, Some(DenialReason), now);
      }
    }

    /** The decision half of `check_permission`: the owner of the capability that grants
        the access (the environment token's, else an active one's), or none. */
    method Authorize(envToken: Option<string>, path: Path, op: Operation, now: nat) returns (grantee: Option<string>)
      modifies this`capabilityCache
      ensures capabilityCache == if envToken.None? then old(capabilityCache) else
        CacheAfter(old(capabilityCache), envToken.value,
                   Validate(config, codec, crypto, old(capabilityCache), envToken.value, now), now)
      ensures var env := EnvGrant(config, codec, crypto, old(capabilityCache), envToken, path, op, now);
        && (grantee.Some? <==> env.Some? || ActiveGrants(activeCapabilities, path, op, now))
        && (env.Some? ==> grantee == Some(env.value.owner))
        && (env.None? && grantee.Some? ==>
              ActiveGrantsTo(activeCapabilities, path, op, now, grantee.value))
    {
      if envToken.Some? {
        var v := ValidateToken(envToken.value, now);
        if v.Ok? && v.value.IsValidForPath(path) && v.value.Allows(op) {
          return Some(v.value.owner);
        }
      }
      var found := FindCovering(activeCapabilities, path, op, now);
      if found.Some? {
        return Some(activeCapabilities[found.value].owner);
      }
      return None;
    }

    /** `grant_capability`: one entry, keyed by the capability id, is added exactly when
        the token could be produced. */
    method GrantCapability(path: Path, permissions: bv8, owner: string, duration: nat, now: nat) returns (r: GResult<string>)
      modifies this`activeCapabilities
      ensures var c := Granted(config, codec, crypto, path, permissions, owner, duration, now);
        && r == Tokens.ToToken(codec, c)
        && activeCapabilities == if r.Ok? then old(activeCapabilities)[HashCapability(c, crypto, codec) := c]
                                 else old(activeCapabilities)
    {
      var lifetime := if duration < config.maxTokenLifetime then duration else config.maxTokenLifetime;
      var capability := NewCapability(path, permissions, owner, lifetime, now);
      if config.requireSignatures {
        capability := Sign(capability, config.hmacSecret, crypto, codec);
      }
      r := Tokens.ToToken(codec, capability);
      if r.Err? {
        return;
      }
      var id := HashCapability(capability, crypto, codec);
      activeCapabilities := activeCapabilities[id := capability];
    }

    /** `revoke_capability`: removes the id of the decoded capability from the active
        map and from the cache (whose keys are token texts), and nothing else. */
    method RevokeCapability(token: string) returns (r: GResult<Unit>)
      modifies this`activeCapabilities, this`capabilityCache
      ensures match Tokens.FromToken(codec, token)
        case Err(e) =>
          r == Err(e) && activeCapabilities == old(activeCapabilities) && capabilityCache == old(capabilityCache)
        case Ok(c) =>
          && r == Ok(Unit)
          && activeCapabilities == old(activeCapabilities) - {HashCapability(c, crypto, codec)}
          && capabilityCache == old(capabilityCache) - {HashCapability(c, crypto, codec)}
    {
      var parsed := Tokens.FromToken(codec, token);
      if parsed.Err? {
        return Err(parsed.error);
      }
      var id := HashCapability(parsed.value, crypto, codec);
      activeCapabilities := activeCapabilities - {id};
      capabilityCache := capabilityCache - {id};
      return Ok(Unit);
    }

    /** `validate_token`: the decision of `Validate`, caching a freshly parsed capability. */
    method ValidateToken(token: string, now: nat) returns (r: GResult<Capability>)
      modifies this`capabilityCache
      ensures var v := Validate(config, codec, crypto, old(capabilityCache), token, now);
        && (r.Ok? <==> !v.Rejected?)
        && (r.Ok? ==> r.value == v.capability)
        && (r.Err? ==> r.error == v.error)
        && capabilityCache == CacheAfter(old(capabilityCache), token, v, now)
    {
      var v := Validate(config, codec, crypto, capabilityCache, token, now);
      match v
      case Cached(c) => r := Ok(c);
      case Rejected(e) => r := Err(e);
      case Parsed(c) =>
        capabilityCache := capabilityCache[token := CacheEntry(c, now)];
        r := Ok(c);
    }

    /** `log_access`. */
    method LogAccess(path: Path, op: Operation, owner: string, success: bool, reason: Option<string>, now: nat)
      modifies this`auditLog
      ensures auditLog == LogAppend(old(auditLog), AuditEntry(now, op, path, owner, success, reason))
    {
      auditLog := auditLog + [AuditEntry(now, op, path, owner, success, reason)];
      if |auditLog| > MaxAuditEntries {
        auditLog := auditLog[AuditDrain..];
      }
    }

    /** `cleanup_expired`, run explicitly at `now`. */
    method CleanupExpired(now: nat)
      modifies this`activeCapabilities, this`capabilityCache
      ensures activeCapabilities == LiveCapabilities(old(activeCapabilities), now)
      ensures capabilityCache == LiveCache(old(capabilityCache), now)
    {
      activeCapabilities := LiveCapabilities(activeCapabilities, now);
      capabilityCache := LiveCache(capabilityCache, now);
    }

    /** `get_stats`: successes and failures split the audit log. */
    function GetStats(): (s: CapabilityStats)
      reads this
      ensures s.totalAuditEntries == |auditLog|
      ensures s.successfulAccesses == SuccessCount(auditLog) && s.failedAccesses == FailureCount(auditLog)
      ensures s.successfulAccesses + s.failedAccesses == s.totalAuditEntries
      ensures Valid() ==> s.totalAuditEntries <= MaxAuditEntries
      ensures s.activeCapabilities == |activeCapabilities| && s.cachedCapabilities == |capabilityCache|
    {
      CountsPartition(auditLog);
      CapabilityStats(|activeCapabilities|, |capabilityCache|, |auditLog|, SuccessCount(auditLog), FailureCount(auditLog))
    }
  }
}

=== FILE: cli.dfy ===
/** The command-line helpers that hold logic: the `rwx` permission parser and the
    capability and the token built by the `token` command. */
module Cli {
  import opened Errors
  import opened Permissions
  import Security
  import Tokens

  /** The bit a permission letter stands for; any other character has none. */
  function LetterBit(ch: char): Option<bv8>
  {
    if ch == 'r' then Some(4)
    else if ch == 'w' then Some(2)
    else if ch == 'x' then Some(1)
    else None
  }

  /** `parse_permissions` as a left fold: OR in each letter's bit, stop at the first
      character that is not a letter. */
  function Parse(s: string): Result<bv8, string>
  {
    if s == [] then Ok(0)
    else
      match Parse(s[..|s| - 1])
      case Err(e) => Err(e)
      case Ok(mask) =>
        var ch := s[|s| - 1];
        match LetterBit(ch)
        case None => Err("Invalid permission: " + [ch])
        case Some(bit) => Ok(mask | bit)
  }

  /** `parse_permissions`: the loop over the characters with its early return. */
  method ParsePermissions(perms: string) returns (r: Result<bv8, string>)
    ensures r == Parse(perms)
  {
    var result: bv8 := 0;
    var i := 0;
    while i < |perms|
      invariant 0 <= i <= |perms|
      invariant Parse(perms[..i]) == Ok(result)
    {
      var ch := perms[i];
      ParseStep(perms, i, result);
      if ch == 'r' {
        result := result | 4;
      } else if ch == 'w' {
        result := result | 2;
      } else if ch == 'x' {
        result := result | 1;
      } else {
        assert perms[..i + 1] <= perms;
        PrefixErrorPersists(perms, i + 1);
        return Err("Invalid permission: " + [ch]);
      }
      i := i + 1;
    }
    assert perms[..i] == perms;
    return Ok(result);
  }

  /** One more character either ORs in its letter's bit or ends the parse with an error. */
  lemma ParseStep(s: string, i: nat, mask: bv8)
    requires i < |s| && Parse(s[..i]) == Ok(mask)
    ensures LetterBit(s[i]).None? ==> Parse(s[..i + 1]) == Err("Invalid permission: " + [s[i]])
    ensures LetterBit(s[i]).Some? ==> Parse(s[..i + 1]) == Ok(mask | LetterBit(s[i]).value)
  {
    assert s[..i + 1][..i] == s[..i];
  }

  /** Once a prefix is rejected, the whole string is rejected with the same message. */
  lemma {:induction false} PrefixErrorPersists(s: string, n: nat)
    requires n <= |s| && Parse(s[..n]).Err?
    ensures Parse(s) == Parse(s[..n])
    decreases |s| - n
  {
    if n < |s| {
      assert s[..n + 1][..n] == s[..n];
      PrefixErrorPersists(s, n + 1);
    } else {
      assert s[..n] == s;
    }
  }

  /** Every character is one of the three letters. */
  predicate AllLetters(s: string)
  {
    forall i :: 0 <= i < |s| ==> LetterBit(s[i]).Some?
  }

  /** Reference mask: r, w and x bits for the letters that occur, in any order and number. */
  function Mask(s: string): bv8
  {
    (if 'r' in s then 4 else 0) | (if 'w' in s then 2 else 0) | (if 'x' in s then 1 else 0)
  }

  /** The index of the first character that is not a permission letter. */
  function FirstInvalid(s: string): (i: nat)
    requires !AllLetters(s)
    ensures i < |s| && LetterBit(s[i]).None?
    ensures forall j :: 0 <= j < i ==> LetterBit(s[j]).Some?
  {
    if LetterBit(s[0]).None? then 0 else 1 + FirstInvalid(s[1..])
  }

  /** The parser accepts exactly strings of permission letters, returns their mask,
      and otherwise names the first offending character. */
  lemma {:induction false} ParseCharacterised(s: string)
    ensures Parse(s).Ok? <==> AllLetters(s)
    ensures Parse(s).Ok? ==> Parse(s).value == Mask(s)
    ensures Parse(s).Err? ==> Parse(s).error == "Invalid permission: " + [s[FirstInvalid(s)]]
  {
    if s == [] {
      return;
    }
    var init := s[..|s| - 1];
    var ch := s[|s| - 1];
    assert s == init + [ch];
    ParseCharacterised(init);
    if Parse(init).Err? {
      FirstInvalidOfPrefix(s, |s| - 1);
      assert Parse(s) == Parse(init);
    } else if LetterBit(ch).None? {
      FirstInvalidAtEnd(s);
      assert Parse(s) == Err("Invalid permission: " + [ch]);
    } else {
      assert AllLetters(s) by {
        forall i | 0 <= i < |s| ensures LetterBit(s[i]).Some? {
          if i < |s| - 1 {
            assert s[i] == init[i];
          }
        }
      }
      MaskSnoc(init, ch);
      assert Parse(s) == Ok(Mask(init) | LetterBit(ch).value);
    }
  }

  lemma MaskSnoc(init: string, ch: char)
    requires LetterBit(ch).Some?
    ensures Mask(init + [ch]) == Mask(init) | LetterBit(ch).value
  {
    var s := init + [ch];
    assert forall c :: c in s <==> c in init || c == ch;
  }

  lemma FirstInvalidAtEnd(s: string)
    requires s != [] && AllLetters(s[..|s| - 1]) && LetterBit(s[|s| - 1]).None?
    ensures !AllLetters(s) && FirstInvalid(s) == |s| - 1
  {
    forall j | 0 <= j < |s| - 1 ensures LetterBit(s[j]).Some? {
      assert s[..|s| - 1][j] == s[j];
    }
  }

  lemma FirstInvalidOfPrefix(s: string, n: nat)
    requires n <= |s| && !AllLetters(s[..n])
    ensures !AllLetters(s) && FirstInvalid(s) == FirstInvalid(s[..n])
  {
    var j := FirstInvalid(s[..n]);
    assert s[..n][j] == s[j];
    forall i | 0 <= i < j ensures LetterBit(s[i]).Some? {
      assert s[..n][i] == s[i];
    }
  }

  /** A successful parse is at most 0b111. */
  lemma ParseBounded(s: string)
    ensures Parse(s).Ok? ==> Parse(s).value <= 7
  {
    ParseCharacterised(s);
  }

  /** Order and repetition do not matter: only which letters occur does. */
  lemma ParseIgnoresOrder(s: string, t: string)
    requires forall c :: c in s <==> c in t
    ensures Parse(s) == Parse(t) || (Parse(s).Err? && Parse(t).Err?)
  {
    ParseCharacterised(s);
    ParseCharacterised(t);
    assert AllLetters(s) <==> AllLetters(t) by {
      forall i | 0 <= i < |s| && AllLetters(t) ensures LetterBit(s[i]).Some? {
        assert s[i] in t;
        var j :| 0 <= j < |t| && t[j] == s[i];
      }
      forall i | 0 <= i < |t| && AllLetters(s) ensures LetterBit(t[i]).Some? {
        assert t[i] in s;
        var j :| 0 <= j < |s| && s[j] == t[i];
      }
    }
    if AllLetters(s) {
      assert Mask(s) == Mask(t);
    }
  }

  /** The letters grant what they say: r grants Read and List, w Write, x Execute. */
  lemma ParsedMaskAllows(s: string)
    requires Parse(s).Ok?
    ensures var m := Parse(s).value;
      && (Permissions.Allows(m, Read) <==> 'r' in s) && (Permissions.Allows(m, List) <==> 'r' in s)
      && (Permissions.Allows(m, Write) <==> 'w' in s) && (Permissions.Allows(m, Execute) <==> 'x' in s)
  {
    ParseCharacterised(s);
    MaskFromBits('r' in s, 'w' in s, 'x' in s);
  }

  /** Worked cases of the parser. */
  lemma ParseExamples()
    ensures Parse("") == Ok(0)
    ensures Parse("rw") == Parse("wr") == Ok(6)
    ensures Parse("rr") == Parse("r") == Ok(4)
    ensures Parse("rwx") == Ok(7)
  {
    assert "rw"[..1] == "r" && "wr"[..1] == "w" && "rr"[..1] == "r" && "r"[..0] == "" && "w"[..0] == "";
    assert "rwx"[..2] == "rw";
  }

  /** An upper-case letter is not a permission letter. */
  lemma ParseRejectsUpperCase()
    ensures Parse("R") == Err("Invalid permission: R")
  {
    assert "R"[..0] == "";
    assert "Invalid permission: " + ['R'] == "Invalid permission: R";
  }

  /** A separator is rejected, and the message names it. */
  lemma ParseRejectsSeparator()
    ensures Parse("r w") == Err("Invalid permission:  ")
  {
    assert "r w"[..2] == "r " && "r "[..1] == "r" && "r"[..0] == "";
    assert "Invalid permission: " + [' '] == "Invalid permission:  ";
    assert Parse("r ") == Err("Invalid permission:  ");
  }

  const CliOwner: string := "cli-user"

  /** The capability the `token` command builds: parsed permissions, expiry
      `expires_hours` hours from now, owner `cli-user`. */
  function GeneratedCapability(path: string, permissions: string, expiresHours: nat, now: nat): (r: Result<Security.Capability, string>)
    ensures r.Ok? <==> Parse(permissions).Ok?
    ensures r.Err? ==> r.error == Parse(permissions).error
    ensures r.Ok? ==> r.value == Security.Capability(path, Parse(permissions).value, now + expiresHours * 3600, CliOwner)
  {
    match Parse(permissions)
    case Err(e) => Err(e)
    case Ok(perms) => Ok(Security.Capability(path, perms, now + expiresHours * 3600, CliOwner))
  }

  /** `generate_token`: the token text it prints, or the error it stops with (a bad
      permission letter, or the serialisation failure as its `Display` text). */
  function GenerateToken(codec: Security.Codec, path: string, permissions: string, expiresHours: nat, now: nat): (r: Result<string, string>)
    ensures Parse(permissions).Err? ==> r == Err(Parse(permissions).error)
    ensures r.Ok? ==> Parse(permissions).Ok? && Tokens.Prefix <= r.value
  {
    match GeneratedCapability(path, permissions, expiresHours, now)
    case Err(e) => Err(e)
    case Ok(c) =>
      match Tokens.ToToken(codec, c)
      case Err(e) => Err("Driver error: " + e.message)
      case Ok(token) => Ok(token)
  }

  /** The printed token decodes back to the capability the command built (given the
      library round-trip laws at that capability). */
  lemma GeneratedTokenDecodes(codec: Security.Codec, path: string, permissions: string, expiresHours: nat, now: nat)
    requires GeneratedCapability(path, permissions, expiresHours, now).Ok?
    requires Tokens.LawsHoldAt(codec, GeneratedCapability(path, permissions, expiresHours, now).value)
    ensures GenerateToken(codec, path, permissions, expiresHours, now).Ok?
    ensures Tokens.FromToken(codec, GenerateToken(codec, path, permissions, expiresHours, now).value)
            == Ok(GeneratedCapability(path, permissions, expiresHours, now).value)
  {
    Tokens.FromToToken(codec, GeneratedCapability(path, permissions, expiresHours, now).value);
  }

  /** A generated token is live for exactly `expires_hours` hours and grants exactly
      the letters that were asked for. */
  lemma GeneratedCapabilityLifetime(path: string, permissions: string, expiresHours: nat, now: nat, t: nat)
    requires GeneratedCapability(path, permissions, expiresHours, now).Ok?
    ensures var c := GeneratedCapability(path, permissions, expiresHours, now).value;
      && (c.IsExpired(t) <==> t > now + 3600 * expiresHours)
      && (c.Allows(Write) <==> 'w' in permissions)
      && c.owner == "cli-user"
  {
    ParsedMaskAllows(permissions);
  }
}

=== FILE: cloud.dfy ===
/** The cloud storage stub driver: fixed answers, routing by the textual prefix `/cloud/`. */
module Cloud {
  import opened Errors
  import opened Bytes
  import opened Paths
  import opened DriverTraits

  const Name: string := "Cloud Storage Driver"
  const Prefix: string := "/cloud/"

  /** The status text up to the path (a cloud emoji, the title, a pin emoji). */
  const Banner: string := "\U{2601}\U{FE0F} GNOS Cloud Driver\n\U{1F4CD} Path: "
  /** The status text after the path. */
  const Trailer: string := "\n\U{1F504} Status: Simulated\n\U{1F4A1} AWS S3, GCP, Azure support coming soon!\n"

  /** `read`: a status report that never fails and names the path it was asked about. */
  function Read(path: Path): (r: GResult<seq<Byte>>)
    ensures r.Ok?
    ensures IsInfix(Utf8Encode(path), r.value)
  {
    Utf8EncodeInfix(Banner, path, Trailer);
    Ok(Utf8Encode(Banner + path + Trailer))
  }

  /** `write`: accepted and discarded. */
  function Write(path: Path, data: seq<Byte>): GResult<Unit>
  {
    Ok(Unit)
  }

  /** `list`: the three providers, whatever the path. */
  function List(path: Path): GResult<seq<string>>
  {
    Ok(["aws", "gcp", "azure"])
  }

  /** `exists`: everything exists. */
  function Exists(path: Path): GResult<bool>
  {
    Ok(true)
  }

  /** `metadata`: the default metadata. */
  function Metadata(path: Path, now: nat): GResult<ResourceMetadata>
  {
    Ok(DefaultMetadata(now))
  }

  /** `supports`: the path text starts with `/cloud/`. */
  predicate Supports(path: Path)
  {
    Prefix <= path
  }

  /** The stub answers: writes succeed and are ignored, everything exists, the listing
      is fixed, and the metadata is blank. */
  lemma StubAnswers(path: Path, data: seq<Byte>, now: nat)
    ensures Write(path, data) == Ok(Unit) && Exists(path) == Ok(true)
    ensures List(path) == Ok(["aws", "gcp", "azure"])
    ensures Metadata(path, now).Ok? && IsBlank(Metadata(path, now).value)
  {
  }

  /** Every supported path lies, component-wise, under `/cloud`. */
  lemma SupportedIsUnderCloud(path: Path)
    requires Supports(path)
    ensures StartsWith(path, "/cloud")
  {
    TextualChildIsUnder("cloud", "/cloud", path);
  }

  /** The directory itself, a sibling sharing its text and a relative spelling are not supported. */
  lemma SupportsExamples()
    ensures Supports("/cloud/aws")
    ensures !Supports("/cloud") && !Supports("/cloudx/aws") && !Supports("cloud/aws")
  {
    assert "/cloudx/aws"[6] != Prefix[6];
  }
}

=== FILE: driver_traits.dfy ===
/** The driver interface: what every backend answers, and the default metadata. */
module DriverTraits {
  import opened Errors
  import opened Bytes
  import opened Paths

  /** What `metadata` reports about a resource; `last_modified` is a clock reading. */
  datatype ResourceMetadata = ResourceMetadata(
    size: nat,
    isDirectory: bool,
    lastModified: nat,
    mimeType: Option<string>,
    customFields: map<string, string>)

  /** A driver seen only through its interface: the operations of `GnosDriver`
      as functions. `supports` decides routing, `name` identifies the driver. */
  datatype DriverOps = DriverOps(
    read: Path -> GResult<seq<Byte>>,
    write: (Path, seq<Byte>) -> GResult<Unit>,
    list: Path -> GResult<seq<string>>,
    existsAt: Path -> GResult<bool>,
    metadata: Path -> GResult<ResourceMetadata>,
    name: string,
    supports: Path -> bool)

  /** An empty, plain resource: no bytes, not a directory, no MIME type, no extra fields. */
  predicate IsBlank(m: ResourceMetadata)
  {
    m.size == 0 && !m.isDirectory && m.mimeType.None? && m.customFields == map[]
  }

  /** `ResourceMetadata::default`, stamped with the clock reading `now`. */
  function DefaultMetadata(now: nat): (m: ResourceMetadata)
    ensures IsBlank(m) && m.lastModified == now
  {
    ResourceMetadata(0, false, now, None, map[])
  }

  /** The default is the only blank metadata for a given clock reading. */
  lemma DefaultIsTheBlankMetadata(m: ResourceMetadata, now: nat)
    ensures IsBlank(m) && m.lastModified == now <==> m == DefaultMetadata(now)
  {
  }
}

=== FILE: drivers.dfy ===
/** The driver registry: which drivers are switched on, and which one serves a path. */
module Drivers {
  import opened Errors
  import opened Paths
  import opened DriverTraits
  import Cloud
  import Http

  /** A registered driver: the AI driver, known only through its interface, or one of
      the two stub drivers. */
  datatype Driver = Ai(ops: DriverOps) | CloudStorage | HttpServices
  {
    /** `supports`, dispatched to the driver. */
    predicate Supports(path: Path)
    {
      match this
      case Ai(ops) => ops.supports(path)
      case CloudStorage => Cloud.Supports(path)
      case HttpServices => Http.Supports(path)
    }

    /** `name`, dispatched to the driver. */
    function Name(): string
    {
      match this
      case Ai(ops) => ops.name
      case CloudStorage => Cloud.Name
      case HttpServices => Http.Name
    }
  }

  const AiKey: string := "ai"
  const CloudKey: string := "cloud"
  const HttpKey: string := "http"

  /** The two stub drivers never claim the same path: their prefixes differ in the
      second character. */
  lemma StubRoutesDisjoint(path: Path)
    ensures !(CloudStorage.Supports(path) && HttpServices.Supports(path))
  {
    if Cloud.Supports(path) {
      assert path[1] == 'c' != Http.Prefix[1];
    }
  }

  class DriverRegistry {
    var drivers: map<string, Driver>

    /** Only the three known keys, each holding its own kind of driver. */
    ghost predicate Valid()
      reads this
    {
      && drivers.Keys <= {AiKey, CloudKey, HttpKey}
      && (AiKey in drivers ==> drivers[AiKey].Ai?)
      && (CloudKey in drivers ==> drivers[CloudKey].CloudStorage?)
      && (HttpKey in drivers ==> drivers[HttpKey].HttpServices?)
    }

    /** `DriverRegistry::new` with the configuration as three flags. `aiInit` is the
        outcome of the AI driver's constructor; a failure there is skipped, not
        returned. The stub drivers' constructors cannot fail. */
    constructor(aiEnabled: bool, cloudEnabled: bool, httpEnabled: bool, aiInit: GResult<DriverOps>)
      ensures Valid()
      ensures AiKey in drivers <==> aiEnabled && aiInit.Ok?
      ensures AiKey in drivers ==> drivers[AiKey] == Ai(aiInit.value)
      ensures CloudKey in drivers <==> cloudEnabled
      ensures HttpKey in drivers <==> httpEnabled
      ensures |drivers| == (if aiEnabled && aiInit.Ok? then 1 else 0)
                          + (if cloudEnabled then 1 else 0) + (if httpEnabled then 1 else 0)
    {
      var m: map<string, Driver> := map[];
      if aiEnabled {
        match aiInit
        case Ok(ops) =>
          m := m[AiKey := Ai(ops)];
        case Err(_) =>
      }
      if cloudEnabled {
        m := m[CloudKey := CloudStorage];
      }
      if httpEnabled {
        m := m[HttpKey := HttpServices];
      }
      drivers := m;
    }

    /** `get_driver`: the first driver, in the map's iteration order, that supports
        the path. The order is unspecified, so the loop picks any unvisited key. */
    method GetDriver(path: Path) returns (r: Option<Driver>)
      ensures r.Some? ==> r.value.Supports(path) && exists k :: k in drivers && drivers[k] == r.value
      ensures r.None? <==> forall k :: k in drivers ==> !drivers[k].Supports(path)
      ensures forall k :: k in drivers && drivers[k].Supports(path)
                && (forall k' :: k' in drivers && drivers[k'].Supports(path) ==> k' == k)
                ==> r == Some(drivers[k])
    {
      var remaining := drivers.Keys;
      while remaining != {}
        invariant remaining <= drivers.Keys
        invariant forall k :: k in drivers && k !in remaining ==> !drivers[k].Supports(path)
        decreases |remaining|
      {
        var k :| k in remaining;
        if drivers[k].Supports(path) {
          return Some(drivers[k]);
        }
        remaining := remaining - {k};
      }
      return None;
    }

    /** `count`: the number of registered drivers, never more than three. */
    function Count(): (n: nat)
      reads this
      ensures n == |drivers.Keys|
      ensures Valid() ==> n <= 3
    {
      KeysBounded(drivers.Keys);
      |drivers|
    }
  }

  lemma KeysBounded(keys: set<string>)
    ensures keys <= {AiKey, CloudKey, HttpKey} ==> |keys| <= 3
  {
    if keys <= {AiKey, CloudKey, HttpKey} {
      assert |{AiKey, CloudKey, HttpKey}| == 3;
      SubsetCardinality(keys, {AiKey, CloudKey, HttpKey});
    }
  }

  lemma {:induction false} SubsetCardinality<T>(a: set<T>, b: set<T>)
    requires a <= b
    ensures |a| <= |b|
    decreases b
  {
    if a != {} {
      var x :| x in a;
      SubsetCardinality(a - {x}, b - {x});
    }
  }

  /** Without the AI driver, routing is unambiguous: at most one registered driver
      supports any path, so `get_driver` does not depend on iteration order. */
  lemma StubRoutingUnambiguous(reg: DriverRegistry, path: Path, k1: string, k2: string)
    requires reg.Valid() && AiKey !in reg.drivers
    requires k1 in reg.drivers && k2 in reg.drivers
    requires reg.drivers[k1].Supports(path) && reg.drivers[k2].Supports(path)
    ensures k1 == k2
  {
    StubRoutesDisjoint(path);
  }
}

=== FILE: errors.dfy ===
/** The crate-wide error type and the result/option wrappers used by every module. */
module Errors {

  /** `GnosError`: the variants the core returns. `Io` carries only its message. */
  datatype GnosError =
    | PermissionDenied(message: string)
    | PathNotFound(message: string)
    | Driver(message: string)
    | Io(message: string)
    | CapabilityExpired
    | InvalidPath(message: string)
    | ResourceBusy(message: string)

  datatype Option<+T> = None | Some(value: T)

  datatype Result<+T, +E> = Ok(value: T) | Err(error: E)

  /** The crate's `Result<T>` alias. */
  type GResult<T> = Result<T, GnosError>

  /** The unit value `()`. */
  datatype Unit = Unit
}

=== FILE: filesystem.dfy ===
/** The FUSE filesystem: a fixed inode tree, a directory listing table, and a table
    of open file handles. Replies to the kernel are the methods' results. The driver
    registry and the capability manager it holds are never consulted. */
module FileSystem {
  import opened Errors
  import opened Bytes
  import opened Paths
  import opened Inodes
  import Drivers
  import Security

  /** The error numbers the callbacks reply with. */
  datatype Errno = ENOENT | EBADF | EIO

  datatype FileType = Directory | RegularFile

  /** The attributes returned to the kernel; times are clock readings in seconds. */
  datatype FileAttr = FileAttr(
    ino: nat, size: nat, blocks: nat,
    atime: nat, mtime: nat, ctime: nat, crtime: nat,
    kind: FileType, perm: nat, nlink: nat,
    uid: nat, gid: nat, rdev: nat, flags: nat, blksize: nat)

  /** An open handle: the file's path and the last buffer written through it. */
  datatype OpenFile = OpenFile(path: Path, data: Option<seq<Byte>>)

  /** One directory entry of a `readdir` reply: its inode, the offset to resume
      from after it, its type and its name. */
  datatype DirEntry = DirEntry(ino: nat, offset: nat, kind: FileType, name: string)

  const RootIno: nat := 1
  const Owner: nat := 1000
  const BlockSize: nat := 4096

  /** The kernel's 64-bit signed offsets. */
  type I64 = x: int | -0x8000_0000_0000_0000 <= x < 0x8000_0000_0000_0000

  /** `offset as usize`: a negative offset wraps to a number of at least 2^63. */
  function AsUsize(offset: I64): (u: nat)
    ensures u < 0x1_0000_0000_0000_0000
    ensures offset >= 0 ==> u == offset
    ensures offset < 0 ==> u >= 0x8000_0000_0000_0000
  {
    if offset < 0 then offset + 0x1_0000_0000_0000_0000 else offset
  }

  /** `as u32`: the low 32 bits. */
  function AsU32(n: nat): (r: nat)
    ensures r < 0x1_0000_0000
    ensures n < 0x1_0000_0000 ==> r == n
  {
    n % 0x1_0000_0000
  }

  /** The inodes created by `GnosFileSystem::new`, all stamped at `now`. */
  function Precreated(now: nat): map<nat, GnosInode>
  {
    map[1 := NewDirectory(1, "/", now),
        2 := NewDirectory(2, "/proc", now),
        3 := NewDirectory(3, "/cloud", now),
        4 := NewDirectory(4, "/net", now),
        5 := NewDirectory(5, "/dev", now),
        10 := NewFile(10, "/proc/llama3", now)]
  }

  /** The path index built by `GnosFileSystem::new`, by components. */
  function PrecreatedIndex(): map<seq<Component>, nat>
  {
    map[[RootDir] := 1,
        [RootDir, Normal("proc")] := 2,
        [RootDir, Normal("cloud")] := 3,
        [RootDir, Normal("net")] := 4,
        [RootDir, Normal("dev")] := 5,
        [RootDir, Normal("proc"), Normal("llama3")] := 10]
  }

  /** The attributes reported for inode number `ino` holding `n`, read at `now`. */
  function Attr(ino: nat, n: GnosInode, now: nat): FileAttr
  {
    FileAttr(ino, n.size, (n.size + 511) / 512, now, n.mtime, n.ctime, n.crtime,
             if n.isDir then Directory else RegularFile, n.permissions,
             if n.isDir then 2 else 1, Owner, Owner, 0, 0, BlockSize)
  }

  /** The fixed listing table of `readdir`: (name, inode) per directory inode. */
  function Listing(ino: nat): (es: seq<(string, nat)>)
    ensures |es| <= 4
  {
    if ino == 1 then [("proc", 2), ("cloud", 3), ("net", 4), ("dev", 5)]
    else if ino == 2 then [("llama3", 10)]
    else if ino == 3 then [("aws", 20), ("gcp", 21), ("azure", 22)]
    else if ino == 4 then [("http", 30)]
    else if ino == 5 then [("sensors", 40)]
    else []
  }

  /** The reply entry for position `i` of a listing: resume offset `i + 1`, and
      always reported as a regular file. */
  function Entry(entries: seq<(string, nat)>, i: nat): DirEntry
    requires i < |entries|
  {
    DirEntry(entries[i].1, i + 1, RegularFile, entries[i].0)
  }

  /** The entries of a listing from position `skip` on, at most `capacity` of them. */
  function Page(entries: seq<(string, nat)>, skip: nat, capacity: nat): seq<DirEntry>
    decreases |entries| - skip
  {
    if skip >= |entries| || capacity == 0 then []
    else [Entry(entries, skip)] + Page(entries, skip + 1, capacity - 1)
  }

  /** A page holds the listing's entries in order from `skip`, as many as fit; each
      carries the offset just past itself. */
  lemma {:induction false} PageContents(entries: seq<(string, nat)>, skip: nat, capacity: nat)
    ensures |Page(entries, skip, capacity)| == if skip >= |entries| then 0 else Min(capacity, |entries| - skip)
    ensures forall k :: 0 <= k < |Page(entries, skip, capacity)| ==>
              skip + k < |entries| && Page(entries, skip, capacity)[k] == Entry(entries, skip + k)
    decreases |entries| - skip
  {
    if skip < |entries| && capacity > 0 {
      PageContents(entries, skip + 1, capacity - 1);
    }
  }

  function Min(a: nat, b: nat): nat
  {
    if a <= b then a else b
  }

  /** Resuming from the offset of the last entry returned continues the listing
      exactly where the previous reply stopped. */
  lemma {:induction false} PageResume(entries: seq<(string, nat)>, skip: nat, c1: nat, c2: nat)
    requires |Page(entries, skip, c1)| > 0
    ensures var p := Page(entries, skip, c1);
      && p[|p| - 1].offset == skip + |p|
      && p + Page(entries, p[|p| - 1].offset, c2) == Page(entries, skip, c1 + c2)
    decreases |entries| - skip
  {
    var p := Page(entries, skip, c1);
    if |Page(entries, skip + 1, c1 - 1)| == 0 {
      PageContents(entries, skip + 1, c1 - 1);
      assert p == [Entry(entries, skip)];
      if c1 > 1 {
        assert skip + 1 >= |entries|;
      }
    } else {
      PageResume(entries, skip + 1, c1 - 1, c2);
    }
  }

  /** The loop of `readdir`: add entries from position `skip` on until the listing
      ends or the reply buffer, holding `capacity` entries, reports full. */
  method FillReply(entries: seq<(string, nat)>, skip: nat, capacity: nat) returns (reply: seq<DirEntry>)
    ensures reply == Page(entries, skip, capacity)
    ensures |reply| <= capacity
    ensures skip >= |entries| ==> reply == []
  {
    reply := [];
    var i := skip;
    while i < |entries|
      invariant |reply| <= capacity
      invariant reply + Page(entries, i, capacity - |reply|) == Page(entries, skip, capacity)
      decreases |entries| - i
    {
      if |reply| == capacity {
        assert Page(entries, i, 0) == [];
        break;
      }
      ghost var room := capacity - |reply|;
      assert Page(entries, i, room) == [Entry(entries, i)] + Page(entries, i + 1, room - 1);
      SeqAssoc(reply, [Entry(entries, i)], Page(entries, i + 1, room - 1));
      reply := reply + [Entry(entries, i)];
      i := i + 1;
    }
  }

  /** The bytes `read` serves for a path: a one-line banner naming it. */
  function FileContent(path: Path): seq<Byte>
  {
    Utf8Encode("GNOS Virtual File: " + path + "\n")
  }

  /** The slice of `data` a read at `start` of at most `size` bytes returns. */
  function Window(data: seq<Byte>, start: nat, size: nat): (w: seq<Byte>)
    ensures |w| <= size
    ensures start >= |data| ==> w == []
    ensures start < |data| ==> w <= data[start..]
  {
    if start < |data| then data[start..Min(start + size, |data|)] else []
  }

  /** Two consecutive reads return what one read of the combined size returns. */
  lemma WindowsCompose(data: seq<Byte>, start: nat, a: nat, b: nat)
    requires start + a <= |data|
    ensures Window(data, start, a) + Window(data, start + a, b) == Window(data, start, a + b)
  {
  }

  /** A read from the start with room for everything returns the whole content. */
  lemma WindowWhole(data: seq<Byte>, size: nat)
    requires |data| <= size
    ensures Window(data, 0, size) == data
  {
  }

  class GnosFileSystem {
    const driverRegistry: Drivers.DriverRegistry
    const capabilityManager: Security.CapabilityManager
    const inodeManager: InodeManager
    /** The clock reading at which the inode tree was built. */
    ghost const createdAt: nat
    var openFiles: map<nat, OpenFile>
    var nextFh: nat

    /** The inode tree is the one built at construction; handles are numbered from 1
        below `nextFh`, and each names the path of a regular file. */
    ghost predicate Valid()
      reads this, inodeManager
    {
      && inodeManager.Valid()
      && inodeManager.inodes == Precreated(createdAt)
      && inodeManager.pathToIno == PrecreatedIndex()
      && nextFh >= 1
      && (forall fh :: fh in openFiles ==> 1 <= fh < nextFh)
      && (forall fh :: fh in openFiles ==> IsFilePath(openFiles[fh].path))
    }

    ghost predicate IsFilePath(p: Path)
      reads this, inodeManager
    {
      exists i :: i in inodeManager.inodes && !inodeManager.inodes[i].isDir && inodeManager.inodes[i].path == p
    }

    /** `GnosFileSystem::new`: the root, `/proc`, `/cloud`, `/net` and `/dev` as
        inodes 1 to 5, the file `/proc/llama3` as inode 10, no open handles, and
        the next handle 1. */
    constructor(driverRegistry: Drivers.DriverRegistry, capabilityManager: Security.CapabilityManager, now: nat)
      ensures Valid()
      ensures createdAt == now
      ensures this.driverRegistry == driverRegistry && this.capabilityManager == capabilityManager
      ensures fresh(inodeManager)
      ensures openFiles == map[] && nextFh == 1
    {
      var m := new InodeManager();
      Populate(m, now);
      this.driverRegistry := driverRegistry;
      this.capabilityManager := capabilityManager;
      inodeManager := m;
      createdAt := now;
      openFiles := map[];
      nextFh := 1;
    }

    /** `get_file_attr`: `PathNotFound` naming an unknown inode; otherwise the
        inode's attributes, with the block count the size rounded up to 512-byte
        blocks and the link count telling directories from files. */
    function GetFileAttr(ino: nat, now: nat): (r: GResult<FileAttr>)
      reads this, inodeManager
      ensures r.Err? <==> ino !in inodeManager.inodes
      ensures r.Err? ==> r.error == PathNotFound("inode " + Decimal(ino))
      ensures r.Ok? ==> var a := r.value; var n := inodeManager.inodes[ino];
        && a.ino == ino && a.size == n.size && a.perm == n.permissions
        && a.size <= a.blocks * 512 < a.size + 512
        && (a.kind == Directory <==> n.isDir) && a.nlink == (if n.isDir then 2 else 1)
        && a.atime == now && a.mtime == n.mtime && a.uid == a.gid == 1000
      ensures r.Ok? ==> r.value == Attr(ino, inodeManager.inodes[ino], now)
    {
      match inodeManager.Get(ino)
      case None => Err(PathNotFound("inode " + Decimal(ino)))
      case Some(n) => Ok(Attr(ino, n, now))
    }

    /** `lookup`: ENOENT for an unknown parent or an unindexed child path; otherwise
        the attributes of the inode indexed under `parent.path.join(name)`. The EIO
        branch cannot be taken while the two inode maps are in step. */
    function Lookup(parent: nat, name: string, now: nat): (r: Result<FileAttr, Errno>)
      reads this, inodeManager
      ensures inodeManager.Valid() ==> r != Err(EIO)
      ensures inodeManager.Valid() ==>
        (r.Ok? <==> parent in inodeManager.inodes
                    && Components(Join(inodeManager.inodes[parent].path, name)) in inodeManager.pathToIno)
      ensures r.Ok? ==>
        (&& parent in inodeManager.inodes
         && inodeManager.FindByPath(Join(inodeManager.inodes[parent].path, name)) == Some(r.value.ino)
         && GetFileAttr(r.value.ino, now) == Ok(r.value))
    {
      match inodeManager.Get(parent)
      case None => Err(ENOENT)
      case Some(p) =>
        match inodeManager.FindByPath(Join(p.path, name))
        case None => Err(ENOENT)
        case Some(child) =>
          match GetFileAttr(child, now)
          case Ok(attr) => Ok(attr)
          case Err(_) => Err(EIO)
    }

    /** `getattr`: the attributes, or ENOENT for an unknown inode. */
    function GetAttr(ino: nat, now: nat): (r: Result<FileAttr, Errno>)
      reads this, inodeManager
      ensures r.Err? <==> ino !in inodeManager.inodes
      ensures r.Err? ==> r.error == ENOENT
      ensures r.Ok? ==> GetFileAttr(ino, now) == Ok(r.value)
    {
      match GetFileAttr(ino, now)
      case Ok(attr) => Ok(attr)
      case Err(_) => Err(ENOENT)
    }

    /** `readdir`: the fixed listing of `ino` from position `offset` on, each entry
        added until the reply buffer, which holds `capacity` entries, reports full.
        A negative offset wraps to a huge skip count and yields nothing. */
    method Readdir(ino: nat, offset: I64, capacity: nat) returns (reply: seq<DirEntry>)
      ensures reply == Page(Listing(ino), AsUsize(offset), capacity)
      ensures |reply| <= capacity
      ensures offset < 0 ==> reply == []
    {
      var entries := Listing(ino);
      reply := FillReply(entries, AsUsize(offset), capacity);
    }

    /** `open`: ENOENT for a directory or an unknown inode, changing nothing;
        otherwise a new handle numbered `next_fh`, with no data, and `next_fh`
        advanced by one. */
    method Open(ino: nat) returns (r: Result<nat, Errno>)
      requires Valid()
      modifies this
      ensures Valid()
      ensures r.Err? <==> ino !in inodeManager.inodes || inodeManager.inodes[ino].isDir
      ensures r.Err? ==> r.error == ENOENT && openFiles == old(openFiles) && nextFh == old(nextFh)
      ensures r.Ok? ==> && r.value == old(nextFh) && r.value !in old(openFiles)
                        && nextFh == old(nextFh) + 1
                        && openFiles == old(openFiles)[r.value := OpenFile(inodeManager.inodes[ino].path, None)]
    {
      match inodeManager.Get(ino)
      case None =>
        return Err(ENOENT);
      case Some(n) =>
        if n.isDir {
          return Err(ENOENT);
        }
        var fh := nextFh;
        nextFh := nextFh + 1;
        openFiles := openFiles[fh := OpenFile(n.path, None)];
        assert IsFilePath(n.path) by {
          assert inodeManager.inodes[ino].path == n.path;
        }
        return Ok(fh);
    }

    /** `read`: EBADF for an unknown handle; otherwise the window of the file's
        banner at the (wrapped) offset, at most `size` bytes, empty past the end. */
    function Read(fh: nat, offset: I64, size: nat): (r: Result<seq<Byte>, Errno>)
      reads this
      ensures r.Err? <==> fh !in openFiles
      ensures r.Err? ==> r.error == EBADF
      ensures r.Ok? ==> r.value == Window(FileContent(openFiles[fh].path), AsUsize(offset), size)
      ensures r.Ok? ==> |r.value| <= size
    {
      if fh in openFiles then
        var data := FileContent(openFiles[fh].path);
        var start := AsUsize(offset);
        var end := Min(start + size, |data|);
        if start < |data| then Ok(data[start..end]) else Ok([])
      else Err(EBADF)
    }

    /** `write`: EBADF for an unknown handle; otherwise the handle's buffer becomes
        the whole of `data`, whatever the offset, and the reply is its length as a
        `u32`. Reads never see the buffer. */
    method Write(fh: nat, offset: I64, data: seq<Byte>) returns (r: Result<nat, Errno>)
      requires Valid()
      modifies this
      ensures Valid()
      ensures nextFh == old(nextFh)
      ensures r.Err? <==> fh !in old(openFiles)
      ensures r.Err? ==> r.error == EBADF && openFiles == old(openFiles)
      ensures r.Ok? ==> r.value == AsU32(|data|)
                        && openFiles == old(openFiles)[fh := OpenFile(old(openFiles)[fh].path, Some(data))]
      ensures forall off: I64, size: nat :: Read(fh, off, size) == old(Read(fh, off, size))
    {
      if fh in openFiles {
        openFiles := openFiles[fh := OpenFile(openFiles[fh].path, Some(data))];
        return Ok(AsU32(|data|));
      }
      return Err(EBADF);
    }

    /** `release`: the handle is forgotten, and the reply is always success, even
        for a handle that was not open. */
    method Release(fh: nat) returns (r: Result<Unit, Errno>)
      requires Valid()
      modifies this
      ensures Valid()
      ensures r.Ok?
      ensures openFiles == old(openFiles) - {fh} && nextFh == old(nextFh)
      ensures forall off: I64, size: nat :: Read(fh, off, size) == Err(EBADF)
    {
      openFiles := openFiles - {fh};
      return Ok(Unit);
    }
  }

  /** The six `create_directory`/`create_file` calls of `GnosFileSystem::new`. */
  method Populate(m: InodeManager, now: nat)
    requires m.Valid() && m.inodes == map[] && m.pathToIno == map[]
    modifies m
    ensures m.Valid() && m.inodes == Precreated(now) && m.pathToIno == PrecreatedIndex()
  {
    PrecreatedComponents();
    var _ := m.CreateDirectory(RootIno, "/", now);
    var _ := m.CreateDirectory(2, "/proc", now);
    var _ := m.CreateDirectory(3, "/cloud", now);
    var _ := m.CreateDirectory(4, "/net", now);
    var _ := m.CreateDirectory(5, "/dev", now);
    var _ := m.CreateFile(10, "/proc/llama3", now);
  }

  /** The components of the six paths the constructor indexes. */
  lemma PrecreatedComponents()
    ensures Components("/") == [RootDir]
    ensures Components("/proc") == [RootDir, Normal("proc")]
    ensures Components("/cloud") == [RootDir, Normal("cloud")]
    ensures Components("/net") == [RootDir, Normal("net")]
    ensures Components("/dev") == [RootDir, Normal("dev")]
    ensures Components("/proc/llama3") == [RootDir, Normal("proc"), Normal("llama3")]
  {
    assert "/"[1..] == "";
    ProcComponents();
    CloudComponents();
    NetComponents();
    DevComponents();
    LlamaComponents();
  }

  // One lemma per literal path: each keeps the solver's unrolling of `Components`
  // on a string literal to a single path.

  lemma ProcComponents()
    ensures Components("/proc") == [RootDir, Normal("proc")]
  {
    TopComponents("proc", "/proc");
  }

  lemma CloudComponents()
    ensures Components("/cloud") == [RootDir, Normal("cloud")]
  {
    TopComponents("cloud", "/cloud");
  }

  lemma NetComponents()
    ensures Components("/net") == [RootDir, Normal("net")]
  {
    TopComponents("net", "/net");
  }

  lemma DevComponents()
    ensures Components("/dev") == [RootDir, Normal("dev")]
  {
    TopComponents("dev", "/dev");
  }

  lemma LlamaComponents()
    ensures Components("/proc/llama3") == [RootDir, Normal("proc"), Normal("llama3")]
  {
    ChildComponents("proc", "llama3", "/proc/llama3");
  }

  /** Only `/proc/llama3` is a regular file, so every open handle is on it, and a
      read of the whole of it returns its one-line banner. */
  lemma OpenHandlesAreLlama(fs: GnosFileSystem, fh: nat)
    requires fs.Valid() && fh in fs.openFiles
    ensures fs.openFiles[fh].path == "/proc/llama3"
    ensures fs.Read(fh, 0, |FileContent("/proc/llama3")|) == Ok(FileContent("/proc/llama3"))
  {
    var i :| i in fs.inodeManager.inodes && !fs.inodeManager.inodes[i].isDir
             && fs.inodeManager.inodes[i].path == fs.openFiles[fh].path;
    assert i == 10;
    WindowWhole(FileContent("/proc/llama3"), |FileContent("/proc/llama3")|);
  }

  /** Lookup walks the tree built at construction: `proc` under the root is the
      directory inode 2 ... */
  lemma LookupFindsProc(fs: GnosFileSystem, now: nat)
    requires fs.Valid()
    ensures fs.Lookup(RootIno, "proc", now).Ok?
    ensures fs.Lookup(RootIno, "proc", now).value.ino == 2
    ensures fs.Lookup(RootIno, "proc", now).value.kind == Directory
  {
    var m := fs.inodeManager;
    assert m.Get(RootIno) == Some(NewDirectory(1, "/", fs.createdAt));
    JoinRootProc();
    TopComponents("proc", "/proc");
    assert m.FindByPath("/proc") == Some(2);
    assert m.Get(2) == Some(NewDirectory(2, "/proc", fs.createdAt));
  }

  /** ... and `llama3` under it is the file inode 10. */
  lemma LookupFindsLlama(fs: GnosFileSystem, now: nat)
    requires fs.Valid()
    ensures fs.Lookup(2, "llama3", now).Ok?
    ensures fs.Lookup(2, "llama3", now).value.ino == 10
    ensures fs.Lookup(2, "llama3", now).value.kind == RegularFile
  {
    var m := fs.inodeManager;
    assert m.Get(2) == Some(NewDirectory(2, "/proc", fs.createdAt));
    JoinProcLlama();
    ChildComponents("proc", "llama3", "/proc/llama3");
    assert m.FindByPath("/proc/llama3") == Some(10);
    assert m.Get(10) == Some(NewFile(10, "/proc/llama3", fs.createdAt));
  }

  /** The listing table and the inode tree disagree: `readdir` of `/cloud` offers
      `aws` as inode 20, which is not an inode, and `lookup` of that name fails ... */
  lemma ListingOffersMissingInode(fs: GnosFileSystem, now: nat)
    requires fs.Valid()
    ensures Listing(3)[0] == ("aws", 20) && 20 !in fs.inodeManager.inodes
    ensures fs.Lookup(3, "aws", now) == Err(ENOENT)
  {
    assert fs.inodeManager.inodes == Precreated(fs.createdAt);
    AwsLookupFails(fs, now);
  }

  lemma AwsLookupFails(fs: GnosFileSystem, now: nat)
    requires fs.inodeManager.Valid()
    requires fs.inodeManager.inodes == Precreated(fs.createdAt) && fs.inodeManager.pathToIno == PrecreatedIndex()
    ensures fs.Lookup(3, "aws", now) == Err(ENOENT)
  {
    var m := fs.inodeManager;
    assert m.Get(3) == Some(NewDirectory(3, "/cloud", fs.createdAt));
    AwsNotIndexed();
    assert m.FindByPath(Join("/cloud", "aws")).None?;
  }

  lemma AwsNotIndexed()
    ensures Components(Join("/cloud", "aws")) !in PrecreatedIndex()
  {
    JoinCloudAws();
    ChildComponents("cloud", "aws", "/cloud/aws");
    assert "cloud"[0] != "proc"[0];
    ThreeComponentKeyAbsent([RootDir, Normal("cloud"), Normal("aws")]);
  }

  /** The only three-component path in the index is `/proc/llama3`. */
  lemma ThreeComponentKeyAbsent(key: seq<Component>)
    requires |key| == 3 && key[1] != Normal("proc")
    ensures key !in PrecreatedIndex()
  {
  }

  // The joins the lookups above perform, one literal per lemma.

  lemma JoinRootProc()
    ensures Join("/", "proc") == "/proc"
  {
  }

  lemma JoinProcLlama()
    ensures Join("/proc", "llama3") == "/proc/llama3"
  {
  }

  lemma JoinCloudAws()
    ensures Join("/cloud", "aws") == "/cloud/aws"
  {
  }

  /** ... and `readdir` of the root calls `proc` a regular file, `getattr` a directory. */
  lemma ListingMislabelsDirectories(fs: GnosFileSystem, now: nat)
    requires fs.Valid()
    ensures Entry(Listing(RootIno), 0).ino == 2 && Entry(Listing(RootIno), 0).kind == RegularFile
    ensures fs.GetAttr(2, now).Ok? && fs.GetAttr(2, now).value.kind == Directory
  {
    assert fs.inodeManager.Get(2) == Some(NewDirectory(2, "/proc", fs.createdAt));
  }
}

=== FILE: http.dfy ===
/** The HTTP services stub driver: fixed answers, routing by the textual prefix `/net/`. */
module Http {
  import opened Errors
  import opened Bytes
  import opened Paths
  import opened DriverTraits

  const Name: string := "HTTP Services Driver"
  const Prefix: string := "/net/"

  /** The status text up to the path (a globe emoji, the title, a pin emoji). */
  const Banner: string := "\U{1F310} GNOS HTTP Driver\n\U{1F4CD} Path: "
  /** The status text after the path. */
  const Trailer: string := "\n\U{1F504} Status: Simulated\n\U{1F4A1} REST API integration coming soon!\n"

  /** `read`: a status report that never fails and names the path it was asked about. */
  function Read(path: Path): (r: GResult<seq<Byte>>)
    ensures r.Ok?
    ensures IsInfix(Utf8Encode(path), r.value)
  {
    Utf8EncodeInfix(Banner, path, Trailer);
    Ok(Utf8Encode(Banner + path + Trailer))
  }

  /** `write`: accepted and discarded. */
  function Write(path: Path, data: seq<Byte>): GResult<Unit>
  {
    Ok(Unit)
  }

  /** `list`: the one service, whatever the path. */
  function List(path: Path): GResult<seq<string>>
  {
    Ok(["http"])
  }

  /** `exists`: everything exists. */
  function Exists(path: Path): GResult<bool>
  {
    Ok(true)
  }

  /** `metadata`: the default metadata. */
  function Metadata(path: Path, now: nat): GResult<ResourceMetadata>
  {
    Ok(DefaultMetadata(now))
  }

  /** `supports`: the path text starts with `/net/`. */
  predicate Supports(path: Path)
  {
    Prefix <= path
  }

  /** The stub answers: writes succeed and are ignored, everything exists, the listing
      is fixed, and the metadata is blank. */
  lemma StubAnswers(path: Path, data: seq<Byte>, now: nat)
    ensures Write(path, data) == Ok(Unit) && Exists(path) == Ok(true)
    ensures List(path) == Ok(["http"])
    ensures Metadata(path, now).Ok? && IsBlank(Metadata(path, now).value)
  {
  }

  /** Every supported path lies, component-wise, under `/net`. */
  lemma SupportedIsUnderNet(path: Path)
    requires Supports(path)
    ensures StartsWith(path, "/net")
  {
    TextualChildIsUnder("net", "/net", path);
  }

  /** The directory itself, a sibling sharing its text and a relative spelling are not supported. */
  lemma SupportsExamples()
    ensures Supports("/net/http")
    ensures !Supports("/net") && !Supports("/netx/http") && !Supports("net/http")
  {
    assert "/netx/http"[4] != Prefix[4];
  }
}

=== FILE: inode.dfy ===
/** The inode table of the virtual filesystem: inode number to inode, and path to
    inode number, kept as two maps that callers fill with numbers of their choosing. */
module Inodes {
  import opened Errors
  import opened Paths

  /** Mode bits 0o755 (rwxr-xr-x) and 0o644 (rw-r--r--). */
  const DirMode: nat := 493
  const FileMode: nat := 420
  const DirSize: nat := 4096

  /** A filesystem object. The three timestamps are clock readings in seconds. */
  datatype GnosInode = GnosInode(
    ino: nat,
    path: Path,
    isDir: bool,
    size: nat,
    permissions: nat,
    mtime: nat,
    ctime: nat,
    crtime: nat)

  /** The owner, group and other digits of a mode, most significant first. */
  function ModeDigits(mode: nat): (nat, nat, nat)
  {
    (mode / 64 % 8, mode / 8 % 8, mode % 8)
  }

  /** `GnosInode::new_directory`, stamped with the one clock reading `now`. */
  function NewDirectory(ino: nat, path: Path, now: nat): (n: GnosInode)
    ensures n.ino == ino && n.path == path && n.isDir
    ensures n.mtime == n.ctime == n.crtime == now
  {
    GnosInode(ino, path, true, DirSize, DirMode, now, now, now)
  }

  /** `GnosInode::new_file`, stamped with the one clock reading `now`. */
  function NewFile(ino: nat, path: Path, now: nat): (n: GnosInode)
    ensures n.ino == ino && n.path == path && !n.isDir
    ensures n.mtime == n.ctime == n.crtime == now
  {
    GnosInode(ino, path, false, 0, FileMode, now, now, now)
  }

  /** A directory is 4096 bytes with mode rwxr-xr-x; a file is empty with mode rw-r--r--. */
  lemma NewInodeModes(ino: nat, path: Path, now: nat)
    ensures NewDirectory(ino, path, now).size == 4096
    ensures ModeDigits(NewDirectory(ino, path, now).permissions) == (7, 5, 5)
    ensures NewFile(ino, path, now).size == 0
    ensures ModeDigits(NewFile(ino, path, now).permissions) == (6, 4, 4)
  {
  }

  class InodeManager {
    var inodes: map<nat, GnosInode>
    /** Keyed by components, as `PathBuf` equality and hashing are. */
    var pathToIno: map<seq<Component>, nat>
    /** Set to 2 and never read or advanced: callers pick inode numbers. */
    var nextIno: nat

    /** Every indexed path names a stored inode, and every inode is stored under
        its own number. */
    ghost predicate Valid()
      reads this
    {
      && (forall k :: k in pathToIno ==> pathToIno[k] in inodes)
      && (forall i :: i in inodes ==> inodes[i].ino == i)
    }

    /** `InodeManager::new`: both maps empty. */
    constructor()
      ensures Valid()
      ensures inodes == map[] && pathToIno == map[] && nextIno == 2
    {
      inodes := map[];
      pathToIno := map[];
      nextIno := 2;
    }

    /** `create_directory`: insert, overwriting whatever the number or the path
        held before; everything else stays. */
    method CreateDirectory(ino: nat, path: Path, now: nat) returns (r: nat)
      requires Valid()
      modifies this
      ensures Valid()
      ensures r == ino
      ensures inodes == old(inodes)[ino := NewDirectory(ino, path, now)]
      ensures pathToIno == old(pathToIno)[Components(path) := ino]
      ensures nextIno == old(nextIno)
      ensures Get(ino) == Some(NewDirectory(ino, path, now)) && FindByPath(path) == Some(ino)
    {
      inodes := inodes[ino := NewDirectory(ino, path, now)];
      pathToIno := pathToIno[Components(path) := ino];
      r := ino;
    }

    /** `create_file`: as `create_directory`, with a file inode. */
    method CreateFile(ino: nat, path: Path, now: nat) returns (r: nat)
      requires Valid()
      modifies this
      ensures Valid()
      ensures r == ino
      ensures inodes == old(inodes)[ino := NewFile(ino, path, now)]
      ensures pathToIno == old(pathToIno)[Components(path) := ino]
      ensures nextIno == old(nextIno)
      ensures Get(ino) == Some(NewFile(ino, path, now)) && FindByPath(path) == Some(ino)
    {
      inodes := inodes[ino := NewFile(ino, path, now)];
      pathToIno := pathToIno[Components(path) := ino];
      r := ino;
    }

    /** `get`: a copy of the inode, `None` for an unknown number. */
    function Get(ino: nat): (r: Option<GnosInode>)
      reads this
      ensures r.None? <==> ino !in inodes
      ensures r.Some? ==> r.value == inodes[ino]
      ensures Valid() && r.Some? ==> r.value.ino == ino
    {
      if ino in inodes then Some(inodes[ino]) else None
    }

    /** `find_by_path`: the number indexed under the path's components; any spelling
        with the same components finds the same number. */
    function FindByPath(path: Path): (r: Option<nat>)
      reads this
      ensures r.None? <==> Components(path) !in pathToIno
      ensures Valid() && r.Some? ==> Get(r.value).Some?
    {
      if Components(path) in pathToIno then Some(pathToIno[Components(path)]) else None
    }
  }
}

=== FILE: paths.dfy ===
/** Unix `std::path` semantics the core relies on. A path is its raw text (what
    `display()` and `to_string_lossy()` print); equality, hashing and `starts_with`
    of paths go through its components, as Rust's `Path` does. */
module Paths {

  type Path = string

  datatype Component = RootDir | CurDir | ParentDir | Normal(name: string)

  /** Index of the first '/' in `s`, or `|s|` when there is none. */
  function SlashIndex(s: string): (i: nat)
    ensures i <= |s|
    ensures forall k :: 0 <= k < i ==> s[k] != '/'
    ensures i < |s| ==> s[i] == '/'
  {
    if s == [] || s[0] == '/' then 0 else 1 + SlashIndex(s[1..])
  }

  /** One '/'-separated piece: empty pieces and "." vanish, ".." is the parent. */
  function Piece(x: string): seq<Component>
  {
    if x == "" || x == "." then [] else if x == ".." then [ParentDir] else [Normal(x)]
  }

  /** The components of the text after any root or leading "." has been consumed. */
  function Segments(s: string): seq<Component>
    decreases |s|
  {
    if s == [] then []
    else
      var i := SlashIndex(s);
      Piece(s[..i]) + if i < |s| then Segments(s[i + 1..]) else []
  }

  /** `Path::components` on Unix: a root, or a "." kept only at the very start
      of a relative path, then the pieces between separators. */
  function Components(p: Path): seq<Component>
  {
    if |p| > 0 && p[0] == '/' then [RootDir] + Segments(p[1..])
    else if p == "." || (|p| >= 2 && p[0] == '.' && p[1] == '/') then [CurDir] + Segments(p[1..])
    else Segments(p)
  }

  predicate IsAbsolute(p: Path)
  {
    |p| > 0 && p[0] == '/'
  }

  /** `path.starts_with(base)`: the components of `base` are a prefix of those of `path`. */
  predicate StartsWith(path: Path, base: Path)
  {
    Components(base) <= Components(path)
  }

  /** `base.join(name)`: an absolute `name` replaces `base`; otherwise a separator is
      added unless `base` is empty or already ends in one. */
  function Join(base: Path, name: string): (r: Path)
    ensures IsAbsolute(name) ==> r == name
    ensures !IsAbsolute(name) ==> |r| >= |name| && r[|r| - |name|..] == name
  {
    if IsAbsolute(name) then name
    else if base == [] || base[|base| - 1] == '/' then base + name
    else base + "/" + name
  }

  /** A file name in the FUSE sense: one non-empty piece that is neither "." nor "..". */
  predicate IsFileName(name: string)
  {
    name != "" && name != "." && name != ".." && forall k :: 0 <= k < |name| ==> name[k] != '/'
  }

  lemma {:induction false} SlashIndexAppend(a: string, t: string)
    ensures SlashIndex(a + t) == if SlashIndex(a) < |a| then SlashIndex(a) else |a| + SlashIndex(t)
  {
    if a != [] && a[0] != '/' {
      assert (a + t)[1..] == a[1..] + t;
      SlashIndexAppend(a[1..], t);
    } else if a == [] {
      assert a + t == t;
    }
  }

  /** The text `a + "/" + b` splits into the pieces of `a` followed by those of `b`. */
  lemma {:induction false} SegmentsAppend(a: string, b: string)
    ensures Segments(a + "/" + b) == Segments(a) + Segments(b)
    decreases |a|, 1
  {
    if SlashIndex(a) < |a| {
      SegmentsAppendInner(a, b);
    } else {
      SegmentsAppendLast(a, b);
    }
  }

  /** `a` has a separator of its own: its first piece leads, and the rest recurses. */
  lemma {:induction false} SegmentsAppendInner(a: string, b: string)
    requires SlashIndex(a) < |a|
    ensures Segments(a + "/" + b) == Segments(a) + Segments(b)
    decreases |a|, 0
  {
    var s := a + "/" + b;
    var j := SlashIndex(a);
    var rest := a[j + 1..];
    assert s == a + ("/" + b);
    SlashIndexAppend(a, "/" + b);
    assert SlashIndex(s) == j;
    assert s[..j] == a[..j];
    assert s[j + 1..] == rest + "/" + b;
    SegmentsAppend(rest, b);
    SegmentsSplit(s);
    SegmentsSplit(a);
    assert Segments(s) == Piece(a[..j]) + (Segments(rest) + Segments(b));
    assert Segments(a) == Piece(a[..j]) + Segments(rest);
    SeqAssoc(Piece(a[..j]), Segments(rest), Segments(b));
  }

  lemma SeqAssoc<T>(x: seq<T>, y: seq<T>, z: seq<T>)
    ensures (x + y) + z == x + (y + z)
  {
  }

  /** Text with a separator: the piece before the first separator, then the rest. */
  lemma SegmentsSplit(s: string)
    requires SlashIndex(s) < |s|
    ensures Segments(s) == Piece(s[..SlashIndex(s)]) + Segments(s[SlashIndex(s) + 1..])
  {
  }

  /** `a` has no separator: it is one piece, and the added '/' starts `b`. */
  lemma SegmentsAppendLast(a: string, b: string)
    requires SlashIndex(a) == |a|
    ensures Segments(a + "/" + b) == Segments(a) + Segments(b)
  {
    var s := a + "/" + b;
    assert s == a + ("/" + b);
    SlashIndexAppend(a, "/" + b);
    assert SlashIndex("/" + b) == 0;
    assert SlashIndex(s) == |a|;
    assert s[..|a|] == a;
    assert s[|a| + 1..] == b;
    assert Segments(s) == Piece(a) + Segments(b);
    if a != [] {
      assert a[..|a|] == a;
      assert Segments(a) == Piece(a);
    }
  }

  lemma FileNameSegments(name: string)
    requires IsFileName(name)
    ensures Segments(name) == [Normal(name)]
  {
    assert SlashIndex(name) == |name|;
    assert name[..|name|] == name;
  }

  /** Joining a file name onto an absolute directory adds exactly one component,
      so the child path starts with its parent. */
  lemma JoinChild(base: Path, name: string)
    requires IsAbsolute(base) && IsFileName(name)
    ensures Components(Join(base, name)) == Components(base) + [Normal(name)]
    ensures StartsWith(Join(base, name), base)
  {
    if base[|base| - 1] == '/' {
      if |base| == 1 {
        JoinChildOfRoot(base, name);
      } else {
        JoinChildOfSlashed(base, name);
      }
    } else {
      JoinChildOfUnslashed(base, name);
    }
  }

  lemma JoinChildOfRoot(base: Path, name: string)
    requires base == "/" && IsFileName(name)
    ensures Components(Join(base, name)) == Components(base) + [Normal(name)]
  {
    FileNameSegments(name);
    assert Join(base, name) == "/" + name;
    assert ("/" + name)[1..] == name;
    assert base[1..] == "";
  }

  lemma JoinChildOfSlashed(base: Path, name: string)
    requires IsAbsolute(base) && |base| > 1 && base[|base| - 1] == '/' && IsFileName(name)
    ensures Components(Join(base, name)) == Components(base) + [Normal(name)]
  {
    FileNameSegments(name);
    var m := base[1..|base| - 1];
    var joined := base + name;
    assert Join(base, name) == joined;
    assert base[1..] == m + "/" + "";
    assert joined[1..] == m + "/" + name;
    SegmentsAppend(m, name);
    SegmentsAppend(m, "");
    assert Segments(base[1..]) == Segments(m);
    assert Segments(joined[1..]) == Segments(m) + [Normal(name)];
  }

  lemma JoinChildOfUnslashed(base: Path, name: string)
    requires IsAbsolute(base) && base[|base| - 1] != '/' && IsFileName(name)
    ensures Components(Join(base, name)) == Components(base) + [Normal(name)]
  {
    FileNameSegments(name);
    var rest := base[1..];
    assert Join(base, name)[1..] == rest + "/" + name;
    SegmentsAppend(rest, name);
  }

  lemma ComponentsOfChild(dir: string, name: string)
    requires IsFileName(dir) && IsFileName(name)
    ensures Components("/" + dir) == [RootDir, Normal(dir)]
    ensures Components("/" + dir + "/" + name) == [RootDir, Normal(dir), Normal(name)]
  {
    FileNameSegments(dir);
    FileNameSegments(name);
    assert ("/" + dir)[1..] == dir;
    assert ("/" + dir + "/" + name)[1..] == dir + "/" + name;
    SegmentsAppend(dir, name);
  }

  /** A path whose text starts with "/dir/" lies under "/dir" component-wise. */
  lemma {:induction false} TextualChildIsUnder(dir: string, base: Path, path: Path)
    requires IsFileName(dir) && base == "/" + dir && base + "/" <= path
    ensures StartsWith(path, base)
  {
    var rest := path[|base| + 1..];
    assert path == "/" + (dir + "/" + rest);
    assert path[1..] == dir + "/" + rest;
    SegmentsAppend(dir, rest);
    FileNameSegments(dir);
    assert base[1..] == dir;
  }

  /** "/dir" covers "/dir/name", and not the other way round. */
  lemma ChildScope(dir: string, name: string, base: Path, child: Path)
    requires IsFileName(dir) && IsFileName(name) && base == "/" + dir && child == base + "/" + name
    ensures StartsWith(child, base) && !StartsWith(base, child)
  {
    ComponentsOfChild(dir, name);
  }

  /** "/dir" and "/dir/" cover each other. */
  lemma TrailingSlashScope(dir: string, base: Path, slashed: Path)
    requires IsFileName(dir) && base == "/" + dir && slashed == base + "/"
    ensures StartsWith(slashed, base) && StartsWith(base, slashed)
  {
    FileNameSegments(dir);
    SegmentsAppend(dir, "");
    assert slashed[1..] == dir + "/" + "";
    assert base[1..] == dir;
  }

  /** "/a" covers neither "/b" nor anything below it, for another name `b`, even
      when the text of `a` is a prefix of the text of `b`. */
  lemma SiblingScope(a: string, b: string, x: string, base: Path, other: Path, below: Path)
    requires IsFileName(a) && IsFileName(b) && IsFileName(x) && a != b
    requires base == "/" + a && other == "/" + b && below == other + "/" + x
    ensures !StartsWith(other, base) && !StartsWith(below, base)
  {
    ComponentsOfChild(a, x);
    ComponentsOfChild(b, x);
    assert Components(base)[1] == Normal(a) != Normal(b);
    assert Components(other)[1] == Normal(b) == Components(below)[1];
  }

  /** Scoping is component-wise: "/proc" covers its child "/proc/llama3" ... */
  lemma ProcCoversChild()
    ensures StartsWith("/proc/llama3", "/proc")
    ensures !StartsWith("/proc", "/proc/llama3")
  {
    ChildScope("proc", "llama3", "/proc", "/proc/llama3");
  }

  /** ... and a trailing-slash spelling of itself ... */
  lemma ProcCoversTrailingSlash()
    ensures StartsWith("/proc/", "/proc") && StartsWith("/proc", "/proc/")
  {
    TrailingSlashScope("proc", "/proc", "/proc/");
  }

  /** ... but not a longer sibling name that merely shares its text ... */
  lemma ProcRejectsTextualPrefix()
    ensures !StartsWith("/procx", "/proc")
  {
    SiblingScope("proc", "procx", "a", "/proc", "/procx", "/procx/a");
  }

  /** ... nor another subtree. */
  lemma ProcRejectsOtherTree()
    ensures !StartsWith("/cloud/x", "/proc")
  {
    SiblingScope("proc", "cloud", "x", "/proc", "/cloud", "/cloud/x");
  }

  /** The components of "/dir", for a file name `dir`. */
  lemma TopComponents(dir: string, p: Path)
    requires IsFileName(dir) && p == "/" + dir
    ensures Components(p) == [RootDir, Normal(dir)]
  {
    ComponentsOfChild(dir, "x");
  }

  /** The components of "/dir/name", for file names `dir` and `name`. */
  lemma ChildComponents(dir: string, name: string, p: Path)
    requires IsFileName(dir) && IsFileName(name) && p == "/" + dir + "/" + name
    ensures Components(p) == [RootDir, Normal(dir), Normal(name)]
  {
    ComponentsOfChild(dir, name);
  }
}

=== FILE: permissions.dfy ===
/** The operation enum and the rwx permission mask shared by both capability engines. */
module Permissions {

  datatype Operation = Read | Write | Execute | List

  /** `Operation::to_bit`: List reuses the read bit. */
  function ToBit(op: Operation): (bit: bv8)
    ensures bit == 1 || bit == 2 || bit == 4
    ensures bit == 4 <==> op == Read || op == List
  {
    match op
    case Read => 4  // 0b100
    case Write => 2  // 0b010
    case Execute => 1  // 0b001
    case List => 4  // 0b100
  }

  /** The `{:?}` rendering of an operation. */
  function OperationName(op: Operation): string
  {
    match op
    case Read => "Read"
    case Write => "Write"
    case Execute => "Execute"
    case List => "List"
  }

  /** `Capability::allows`: the operation's bit is set in the mask. */
  predicate Allows(permissions: bv8, op: Operation)
  {
    permissions & ToBit(op) != 0
  }

  /** The rwx part of a mask is exactly what `allows` reports for Read, Write and
      Execute; the higher bits are never consulted. */
  lemma AllowsDeterminesRwx(permissions: bv8)
    ensures permissions & 7 ==
      (if Allows(permissions, Read) then 4 else 0) |
      (if Allows(permissions, Write) then 2 else 0) |
      (if Allows(permissions, Execute) then 1 else 0)
    ensures forall op :: Allows(permissions, op) <==> Allows(permissions & 7, op)
  {
    forall op ensures Allows(permissions, op) <==> Allows(permissions & 7, op) {
      assert ToBit(op) & 7 == ToBit(op);
    }
  }

  /** List is granted exactly when Read is, for every mask. */
  lemma ListIffRead(permissions: bv8)
    ensures Allows(permissions, List) <==> Allows(permissions, Read)
  {
  }

  /** The three rwx bits are independent: any combination can be granted. */
  lemma MaskFromBits(r: bool, w: bool, x: bool)
    ensures var m: bv8 := (if r then 4 else 0) | (if w then 2 else 0) | (if x then 1 else 0);
      && (Allows(m, Read) <==> r) && (Allows(m, List) <==> r)
      && (Allows(m, Write) <==> w) && (Allows(m, Execute) <==> x)
  {
  }
}

=== FILE: security.dfy ===
/** The capability engine that is compiled into the crate: a four-field capability,
    the same bit, expiry, scope and token rules, and a permission check that is in
    development mode and grants everything. */
module Security {
  import opened Errors
  import opened Paths
  import opened Permissions
  import Tokens

  datatype Capability = Capability(path: Path, permissions: bv8, expiration: nat, owner: string)
  {
    predicate Allows(op: Operation)
    {
      Permissions.Allows(permissions, op)
    }

    /** Strict: still live at the second of expiry. */
    predicate IsExpired(now: nat)
    {
      now > expiration
    }

    /** Component-wise `Path::starts_with` on the capability's path. */
    predicate IsValidForPath(p: Path)
    {
      StartsWith(p, path)
    }
  }

  type Codec = Tokens.Codec<Capability>

  /** Expiry is strict and scope is by components, as in the full engine. */
  lemma CapabilityRules(c: Capability)
    ensures !c.IsExpired(c.expiration) && c.IsExpired(c.expiration + 1)
    ensures c.Allows(List) <==> c.Allows(Read)
    ensures c.IsValidForPath(c.path)
  {
  }

  /** `to_token` / `from_token` on this capability type: the token starts with `gnos.`,
      text without it is refused with `PermissionDenied`, and decoding inverts encoding. */
  lemma TokenRoundTrip(codec: Codec, c: Capability, text: string)
    requires Tokens.LawsHoldAt(codec, c)
    ensures Tokens.ToToken(codec, c).Ok? && Tokens.Prefix <= Tokens.ToToken(codec, c).value
    ensures Tokens.FromToken(codec, Tokens.ToToken(codec, c).value) == Ok(c)
    ensures !(Tokens.Prefix <= text) ==> Tokens.FromToken(codec, text) == Err(PermissionDenied("Invalid token format"))
  {
    Tokens.FromToToken(codec, c);
  }

  datatype SecurityConfig = SecurityConfig(defaultPermissions: bv8, maxTokenLifetime: nat)

  /** `SecurityConfig::default`. */
  function DefaultConfig(): (d: SecurityConfig)
  {
    SecurityConfig(4, 24 * 3600)
  }

  /** The default permissions allow Read and List but not Write or Execute, and a
      token may live at most one day. */
  lemma DefaultConfigReadOnly()
    ensures var d := DefaultConfig();
      && Permissions.Allows(d.defaultPermissions, Read) && Permissions.Allows(d.defaultPermissions, List)
      && !Permissions.Allows(d.defaultPermissions, Write) && !Permissions.Allows(d.defaultPermissions, Execute)
      && d.maxTokenLifetime == 86400
  {
  }

  datatype CapabilityManager = CapabilityManager(config: SecurityConfig)

  /** `check_permission`: the `GNOS_TOKEN` value is decoded and checked, but every path
      ends in `Ok(())`; nothing is denied, whatever the token says. */
  function CheckPermission(m: CapabilityManager, codec: Codec, envToken: Option<string>,
                           path: Path, op: Operation, now: nat): (r: GResult<Unit>)
    ensures r == Ok(Unit)
  {
    if envToken.Some? && Tokens.FromToken(codec, envToken.value).Ok? then
      var c := Tokens.FromToken(codec, envToken.value).value;
      if c.IsValidForPath(path) && c.Allows(op) && !c.IsExpired(now) then Ok(Unit)
      else Ok(Unit)
    else Ok(Unit)
  }
}

=== FILE: tokens.dfy ===
/** The `gnos.` token text form of a capability, shared by both capability engines:
    `"gnos." + base64url(utf8(json(capability)))`. JSON (serde_json), base64 without
    padding and `String::from_utf8` are library code, so they are parameters here. */
module Tokens {
  import opened Errors
  import opened Bytes

  /** The library functions a token passes through; `C` is the capability type. */
  datatype Codec<!C> = Codec(
    toJson: C -> Option<string>,
    fromJson: string -> Option<C>,
    base64Encode: seq<Byte> -> string,
    base64Decode: string -> Option<seq<Byte>>,
    utf8Decode: seq<Byte> -> Option<string>)

  const Prefix: string := "gnos."

  /** `to_token`: fails only when serialisation fails, and then with a driver error. */
  function ToToken<C>(codec: Codec<C>, c: C): (r: GResult<string>)
    ensures r.Ok? <==> codec.toJson(c).Some?
    ensures r.Ok? ==> Prefix <= r.value
    ensures r.Err? ==> r.error.Driver?
  {
    match codec.toJson(c)
    case None => Err(Driver("Failed to serialize capability"))
    case Some(json) => Ok(Prefix + codec.base64Encode(Utf8Encode(json)))
  }

  /** `from_token`: every failure is `PermissionDenied`, and text without the
      `gnos.` prefix is refused before anything is decoded. */
  function FromToken<C>(codec: Codec<C>, token: string): (r: GResult<C>)
    ensures !(Prefix <= token) ==> r == Err(PermissionDenied("Invalid token format"))
    ensures r.Err? ==> r.error.PermissionDenied?
    ensures r.Ok? ==> Prefix <= token
  {
    if !(Prefix <= token) then Err(PermissionDenied("Invalid token format"))
    else
      match codec.base64Decode(token[|Prefix|..])
      case None => Err(PermissionDenied("Invalid token encoding"))
      case Some(bytes) =>
        match codec.utf8Decode(bytes)
        case None => Err(PermissionDenied("Invalid token UTF-8"))
        case Some(json) =>
          match codec.fromJson(json)
          case None => Err(PermissionDenied("Invalid token JSON"))
          case Some(c) => Ok(c)
  }

  /** The library round-trip laws, needed only at the one capability `c`:
      JSON parses back what it printed, UTF-8 decodes its own encoding and
      base64 decodes its own output. */
  predicate LawsHoldAt<C(==)>(codec: Codec<C>, c: C)
  {
    match codec.toJson(c)
    case None => false
    case Some(json) =>
      && codec.fromJson(json) == Some(c)
      && codec.utf8Decode(Utf8Encode(json)) == Some(json)
      && codec.base64Decode(codec.base64Encode(Utf8Encode(json))) == Some(Utf8Encode(json))
  }

  /** Decoding a token recovers the capability it was made from. */
  lemma FromToToken<C>(codec: Codec<C>, c: C)
    requires LawsHoldAt(codec, c)
    ensures ToToken(codec, c).Ok?
    ensures FromToken(codec, ToToken(codec, c).value) == Ok(c)
  {
    var json := codec.toJson(c).value;
    var body := codec.base64Encode(Utf8Encode(json));
    assert (Prefix + body)[|Prefix|..] == body;
  }
}
